=== FILE: README.md ===
# ExoAI ledgers and stub generator — a Dafny model

This project models the core of the ExoAI pipeline: its two append-only
ledgers and the naming and parameter rules of its code generator.

- **The JSON snapshot ledger** (`src/blockchain_ledger.py`, module
  `SnapshotLedger`). The whole chain lives in one file. Every call loads all
  of it, and every append rewrites all of it. A block is a dict with six
  fields: `index`, `timestamp`, `candidate_id`, `probability`,
  `detection_hash` and `previous_hash`. A seventh field, `hash`, holds the
  SHA-256 of the other six, serialised with sorted keys.
- **The SQLite ledger** (`src/ledger/sql_ledger.py`, module `SqlLedger`).
  This is an insert-only `ledger` table with AUTOINCREMENT ids. Each row
  stores two things side by side:
  - the hash of its own `{type, timestamp, data}`;
  - the hash of the newest row at the time of the insert.
- **The stub generator's rendering** (`src/generate_code.py`, module
  `CodeGen`). A component's YAML `input` becomes a parameter list and then
  the `param_str` that follows `self`. A snake_case name becomes a class
  name and a method name.

Shared modules:
- `Json` models the JSON values the ledgers store. A dict is kept as its
  members in insertion order. `PyEq` is equality up to dict key order, which
  is Python's `==` on such values as far as containers go: lists compare
  element by element, and dicts compare by key set and by the value under
  each key, whatever order the keys were inserted in. Numbers and other
  scalars compare structurally, so `1`, `1.0` and `true` are unequal.
- `Canonical` models what `json.dumps(..., sort_keys=True)` serialises.
  Every dict, at every depth, is sorted by key in Python's code-point string
  order. Values equal up to dict key order (`PyEq`) have the same canonical
  form, at every depth of nesting. So "the hash ignores key order" is a theorem, not
  an assumption.
- `Text` models Python string order, `lower`, `capitalize` and counting.
- `YamlDict` models the YAML values the generator reads. A mapping is kept as its entries as written, repeated keys included. `DictOf` builds the dict `yaml.safe_load` makes of them: each key at the place it was first written, holding the value written last under it.
- `Base` holds `Option` and `Result`.

SHA-256 and the JSON text encoding are not modelled. Each ledger takes a
`Hasher` parameter: any function from a canonical JSON value to a string.
Every property below therefore holds whatever the digest function is.
Clock readings (`datetime.utcnow()`, `time.time()`) are fields of the
arguments. The ledger file and the database are values: `Store` and `Db`.

Behaviours the code has, as the model states them:
- `verify_integrity` loops over `range(1, len(ledger))`, so the first block
  is never examined. Its fields can be rewritten without detection as long
  as its stored hash is kept. `SnapshotLedger.FirstBlockUnchecked` and
  `SnapshotLedger.FirstBlockTamperUndetected` state this.
- `list_entries(limit)` returns `ledger[-limit:]`. A limit of 0 returns the
  whole ledger. A negative limit drops the first `|limit|` blocks.
- A lookup of a missing key in the snapshot ledger raises `KeyError`. The
  model returns it as `Failure(KeyError(key))`, in the order the code reads
  the keys.
- In the SQLite ledger the first row's `prev_hash` is `""`, not a genesis
  marker. Rows are listed newest first. A negative `LIMIT` means no limit.
- AUTOINCREMENT never reuses an id and stops at 2^63-1. Once that id has
  been handed out, every further insert fails with SQLITE_FULL. The table
  is then left as `init_db` made it.
- The two `!=` tests of `verify_integrity` are Python equality. A
  `previous_hash` that is a dict with the same items in another order still
  matches.
- `prev_hash` is not part of a row's digest. A row's `hash` covers only its
  own type, timestamp and data.
- `param_str` is empty when there are no parameters. It is also empty when
  the only parameter is the empty string, because the code joins first and
  then tests the joined text.

## Model

| member | source | states |
|---|---|---|
| Text.Lower | src/generate_code.py:34 | `lower()` keeps the length; the result has no capital letter, characters that are not capitals are kept, and each character still names the same letter up to case |
| Text.LowerIdempotent | src/generate_code.py:34 | lowering twice is the same as lowering once |
| Text.Capitalize | src/generate_code.py:41 | `capitalize()` raises the first character, lowers the rest, and changes nothing but case |
| Text.LessTotal | src/blockchain_ledger.py:12 | two distinct keys are always ordered one way or the other, so `sort_keys` gives one order |
| Text.LessTransitive | src/blockchain_ledger.py:12 | the key order used by `sort_keys` is transitive |
| Json.GetFound | src/blockchain_ledger.py:63 | `d[k]` succeeds exactly when `k` is a key of `d`, and returns that key's value |
| Json.GetMember | src/blockchain_ledger.py:63 | in a dict without repeated keys, a lookup of a member's key returns that member's value |
| Json.WithoutMembers | src/blockchain_ledger.py:66 | the comprehension keeps exactly the members whose key is not `"hash"` |
| Json.WithoutAbsent | src/blockchain_ledger.py:66 | filtering out a key the dict does not hold gives back the same dict |
| Json.PyEqReflexive | src/blockchain_ledger.py:63 | every JSON value without repeated keys equals itself up to dict key order (`PyEq`) |
| Json.PyEqSwapped | src/blockchain_ledger.py:63 | a two-key dict equals the same dict with its keys inserted in the other order |
| Canonical.SortByKey | src/blockchain_ledger.py:12 | sorting the members is a permutation: the same members with the same multiplicities |
| Canonical.SortStrictlySorted | src/blockchain_ledger.py:12 | members with distinct keys come out strictly ascending by key |
| Canonical.StrictlySortedUnique | src/blockchain_ledger.py:12 | two key-sorted dicts with the same members are identical, so the sorted serialisation is unique |
| Canonical.SameEntriesSameCanonical | src/blockchain_ledger.py:12 | two dicts with the same keys, whose values under each key canonicalise alike, canonicalise alike, whatever their insertion order |
| Canonical.CanonicalRespectsPyEq | src/blockchain_ledger.py:12 | values equal up to dict key order (`PyEq`) serialise alike under `sort_keys`: dict key order does not matter at any depth |
| SnapshotLedger.HashIgnoresKeyOrder | src/blockchain_ledger.py:10-13 | `_calculate_hash` gives equal digests for blocks equal up to dict key order (`PyEq`), at any depth |
| SnapshotLedger.Load | src/blockchain_ledger.py:16-22 | a missing file is created holding `[]` and yields `[]`; an existing file yields its saved ledger and is left as is |
| SnapshotLedger.Save | src/blockchain_ledger.py:25-28 | loading after saving gives back exactly the saved ledger |
| SnapshotLedger.Fields | src/blockchain_ledger.py:36-43 | the new block has exactly six keys, none repeated and none of them `hash`, holding the given index, timestamp, candidate, probability, detection hash and previous hash |
| SnapshotLedger.Seal | src/blockchain_ledger.py:45 | after sealing, the stored hash is the digest of the block without `hash`, and dropping `hash` gives back the unsealed fields |
| SnapshotLedger.SealKeeps | src/blockchain_ledger.py:45 | adding `hash` changes the value under no other key |
| SnapshotLedger.NewBlockRecords | src/blockchain_ledger.py:36-45 | the sealed block holds the given index, timestamp, candidate, probability, detection hash and previous hash |
| SnapshotLedger.TailHash | src/blockchain_ledger.py:35 | `GENESIS` for an empty ledger; otherwise the last block's hash, or `KeyError` exactly when that block has no `hash` |
| SnapshotLedger.Append | src/blockchain_ledger.py:33-47 | succeeds exactly when the tail hash can be read; on success the new ledger is the old one plus the new block, which records the arguments at index length+1, links to the tail hash and is sealed; without `hash` it is exactly the six fields, and `hash` is its seventh and last key |
| SnapshotLedger.AddEntry | src/blockchain_ledger.py:31-50 | the saved ledger is the loaded one plus the returned block; fails with `KeyError("hash")` only when a file existed whose last block lacks `hash` |
| SnapshotLedger.Recent | src/blockchain_ledger.py:56 | the result is a contiguous suffix of the ledger: min(limit, length) blocks for a positive limit, all blocks for 0, length+limit blocks (at least 0) for a negative limit |
| SnapshotLedger.ListEntries | src/blockchain_ledger.py:53-56 | `list_entries` returns a suffix of the loaded ledger: min(limit, length) blocks for a positive limit, all for 0, length+limit (at least 0) for a negative one; the file is left holding the ledger; the limit defaults to 10 |
| SnapshotLedger.ScanMeaning | src/blockchain_ledger.py:62-71 | the loop returns True exactly when every examined check passes; otherwise it returns the outcome of the first failing check |
| SnapshotLedger.VerifyLedger | src/blockchain_ledger.py:62-71 | True exactly when every block from the second on passes both checks, the link and the hash compared with Python `==`; otherwise False or `KeyError`, as decided by the first failing block |
| SnapshotLedger.VerifyIntegrity | src/blockchain_ledger.py:59-71 | `verify_integrity` on the loaded ledger: True exactly when blocks 2..N all pass; otherwise False or `KeyError`, as decided by the first failing block |
| SnapshotLedger.AppendKeepsChained | src/blockchain_ledger.py:35-47 | on a well-formed chain, `add_entry` always succeeds and keeps the chain well formed |
| SnapshotLedger.ChainedBlocksPass | src/blockchain_ledger.py:62-69 | every block of a well-formed chain passes both checks |
| SnapshotLedger.Replay | src/blockchain_ledger.py:31-47 | a run of `add_entry` calls from an empty file gives a well-formed chain, one block per call, recording each call's arguments |
| SnapshotLedger.ChainedVerifies | src/blockchain_ledger.py:59-71 | `verify_integrity` returns True on every well-formed chain |
| SnapshotLedger.ReplayVerifies | src/blockchain_ledger.py:59-71 | `verify_integrity` returns True on any ledger built only by `add_entry` |
| SnapshotLedger.RunReplays | src/blockchain_ledger.py:31-50 | `add_entry` called repeatedly from no file never raises, and the file ends up holding the replayed chain |
| SnapshotLedger.HashTamperDetected | src/blockchain_ledger.py:66-69 | rewriting the fields of a block after the first without fixing its hash makes verification return False |
| SnapshotLedger.LinkTamperDetected | src/blockchain_ledger.py:63-65 | rewriting the `previous_hash` of a block after the first makes verification return False |
| SnapshotLedger.SealedLinkPasses | src/blockchain_ledger.py:62-71 | a block sealed by `add_entry` passes its check exactly when its `previous_hash` equals the predecessor's `hash` under Python `==`, and is a broken link otherwise |
| SnapshotLedger.ReorderedLinkVerifies | src/blockchain_ledger.py:62-71 | for example, a two-block ledger whose second `previous_hash` is the first block's `hash` dict with its keys in the other order verifies True; `SealedLinkPasses` is the form for all inputs |
| SnapshotLedger.ScanReadsSuffix | src/blockchain_ledger.py:62 | the loop's outcome depends only on the checks from its starting index on |
| SnapshotLedger.FirstBlockUnchecked | src/blockchain_ledger.py:62 | replacing the first block by any block with the same stored hash leaves the result unchanged |
| SnapshotLedger.FirstBlockTamperUndetected | src/blockchain_ledger.py:62-71 | on a chain built by `add_entry`, rewriting the first block's fields while keeping its hash still verifies True |
| SqlLedger.InitDb | src/ledger/sql_ledger.py:6-18 | afterwards the table exists; a missing table is created empty with its AUTOINCREMENT counter at 0, and an existing one is left unchanged |
| SqlLedger.InitDbIdempotent | src/ledger/sql_ledger.py:9 | running `init_db` twice is the same as running it once |
| SqlLedger.ComputeHashIgnoresKeyOrder | src/ledger/sql_ledger.py:20-22 | entries whose `data` are equal up to dict key order (`PyEq`) get the same digest, whatever the key order at any depth |
| SqlLedger.NewestHash | src/ledger/sql_ledger.py:31-33 | `""` on an empty table, otherwise the hash of the row with the largest id |
| SqlLedger.NextId | src/ledger/sql_ledger.py:10 | the next AUTOINCREMENT id is larger than every id present and one past the largest id ever handed out; there is none once that id is 2^63-1 |
| SqlLedger.AppendEntry | src/ledger/sql_ledger.py:24-38 | fails with SQLITE_FULL exactly when the ids are used up, leaving the table as `init_db` made it; otherwise one row is added after the existing rows, which are unchanged; its id is one past the largest id ever handed out, so no id is reused; it stores the given type, timestamp and data, the returned hash, and the previous newest hash; the returned hash is the digest of `{type, timestamp, data}` |
| SqlLedger.NewestFirstOrder | src/ledger/sql_ledger.py:44 | on a table whose ids ascend, `ORDER BY id DESC LIMIT n` returns rows of the table with strictly descending ids, and every row it leaves out has a smaller id than every row it returns |
| SqlLedger.ListEntries | src/ledger/sql_ledger.py:40-49 | at most `limit` rows (all of them for a negative limit), defaulting to 100: the newest rows of the table, in reverse table order, strictly descending by id |
| SqlLedger.AppendKeepsChained | src/ledger/sql_ledger.py:27-35 | appending to a table where each row matches its own digest and links to its predecessor keeps it so |
| SqlLedger.Replay | src/ledger/sql_ledger.py:24-38 | a run of `append_entry` calls on a fresh database gives ids 1..N holding the given entries, each linked to the one before |
| SqlLedger.ListedDataIsAppendedData | src/ledger/sql_ledger.py:44-48 | listing returns the appended data unchanged, newest first, with ids N, N-1, … |
| YamlDict.Assign | src/generate_code.py:9 | assigning into a dict without repeated keys keeps it so: an existing key keeps its place and takes the new value, a new key goes last |
| YamlDict.DictOfKeys | src/generate_code.py:9 | the dict read from a mapping holds exactly the keys written in it |
| YamlDict.DictOfLastValues | src/generate_code.py:9 | each key of the dict holds the value written last under it |
| YamlDict.DictOfOrder | src/generate_code.py:9 | the dict's keys are in the order in which they were first written |
| YamlDict.DictOfDistinct | src/generate_code.py:9 | a mapping with no repeated key reads as exactly the entries written |
| CodeGen.MapInputParams | src/generate_code.py:9-24 | a dict input gives one `"k: v"` parameter per distinct key written, in order of first writing, each with the value written last under its key |
| CodeGen.DistinctKeysParams | src/generate_code.py:22-24 | a dict input with no repeated key gives one `"k: v"` parameter per entry, in the order written |
| CodeGen.LowerIsNone | src/generate_code.py:34 | `s.lower() == "none"` holds exactly for the sixteen case spellings of "none" |
| CodeGen.StringInputParams | src/generate_code.py:34-35 | a string input is a single parameter unless it spells "none" in any case, in which case there are none |
| CodeGen.ScalarInputParams | src/generate_code.py:21-35 | an input that is not a dict, list or string gives no parameters |
| CodeGen.ListParamsAppend | src/generate_code.py:25-33 | a list input's parameters are its elements' contributions concatenated in order |
| CodeGen.ListElementParams | src/generate_code.py:25-33 | each element of a list input contributes its own parameters in place, between those of the elements before and after it: a dict its `"k: v"` pairs, a two-element list one pair, a string itself, anything else nothing |
| CodeGen.StringListParams | src/generate_code.py:32-33 | a list of strings gives exactly those strings, one parameter each |
| CodeGen.JoinEmpty | src/generate_code.py:37 | joining with a non-empty separator gives `""` exactly for no parts or a single empty part |
| CodeGen.ParamStr | src/generate_code.py:37-39 | `param_str` is empty exactly when there are no parameters or the only one is `""`; otherwise it is `", "` followed by the parameters joined with `", "` |
| CodeGen.Split | src/generate_code.py:41 | `split("_")` gives one more piece than there are underscores, and no piece contains one |
| CodeGen.SplitJoin | src/generate_code.py:41 | joining the pieces with `"_"` gives back the name |
| CodeGen.StripIsConcatOfSplit | src/generate_code.py:41-42 | removing the underscores is the same as gluing the split pieces together |
| CodeGen.LowerConcatCapitalized | src/generate_code.py:41 | capitalising the pieces changes only letter case and keeps the length |
| CodeGen.CamelOfSplit | src/generate_code.py:41 | the character-by-character reference equals joining the capitalised pieces of `split("_")` |
| CodeGen.MethodName | src/generate_code.py:42 | the method name has no underscore and is the name minus its underscores |
| CodeGen.ClassName | src/generate_code.py:41 | the class name equals the character-by-character reference: underscores dropped, the first character of the name and each one after an underscore raised, all others lowered; it has no underscore and differs from the method name only in letter case |
| CodeGen.Generate | src/generate_code.py:14-42 | the stub carries the class name, the method name and the `param_str` of the component's `input` (`[]` when absent, so an empty `param_str`); the two names have no underscore and agree up to case |

## Left out

- SHA-256 and the JSON text encoding are the `Hasher` parameter. So are the different separators of the two ledgers' `json.dumps` calls. Only the sorted-key canonical form is modelled.
- File, SQLite and clock I/O are out. The file and the table are values, and the timestamps are arguments. Connection handling, commits and `print` logging are not modelled.
- Concurrent writers are not modelled. The read-then-write of both ledgers is treated as atomic.
- A ledger file that is not valid JSON, or whose content is not a list of dicts, is not modelled. Neither is a `data` value that `json.dumps` rejects.
- Stored JSON is taken to read back as the value that was written. This covers `json.dumps`/`json.loads` of `data` and the file round trip. Python's own float and int round trips are not modelled.
- Floats are opaque 64-bit patterns that are stored and compared, never computed with.
- Json.PyEqReflexive: a NaN is not equal to itself under Python `==`. Floats are compared as bit patterns here, so the lemma also covers NaN, where Python disagrees.
- Canonical.CanonicalRespectsPyEq: the lemma holds for equality up to dict key order, not for all of Python's `==`. Python calls `1`, `1.0` and `True` equal, and `0.0` and `-0.0` too, but `json.dumps` writes each differently.
- SnapshotLedger.HashIgnoresKeyOrder: blocks that Python calls equal only through numbers of different type (`1` and `1.0`), or through `0.0` and `-0.0`, serialise differently and can get different digests. The lemma covers equality up to dict key order only.
- SqlLedger.ComputeHashIgnoresKeyOrder: as for `SnapshotLedger.HashIgnoresKeyOrder`, `data` values that Python calls equal only through numbers of different type serialise differently. The lemma covers equality up to dict key order only.
- SnapshotLedger.VerifyLedger: the `!=` tests are Python equality as far as lists and dict key order go. Python's cross-type equality of numbers (`1 == 1.0 == True`, `0.0 == -0.0`, NaN unequal to itself) is not modelled. Those values compare structurally instead.
- A ledger file holding a dict with a repeated key is not modelled. `json.load` keeps the last value for such a key, and `add_entry` never writes one.
- SqlLedger.ListEntries: SQLite's handling of a `LIMIT` too large for 64 bits is not modelled.
- Text.Lower: only ASCII letters change case. This is exact for the `"none"` test, which no non-ASCII character can pass.
- Text.Capitalize: only ASCII letters change case. Python also changes non-ASCII letters, and can change the length: `'ß'.capitalize()` is `'Ss'`.
- CodeGen.ClassName: names are taken to be ASCII. With a non-ASCII letter, Python's class name can differ from the model's, and can even be longer than the name minus its underscores (`'ß'` becomes `'Ss'`).
- CodeGen.Params: dict keys are compared structurally. `yaml.safe_load` merges keys that Python calls equal but that differ in type (`1`, `1.0` and `true`), and raises on an unhashable key (a list or dict used as a key). Neither is modelled. Repeated keys of the same form are modelled: the first position is kept with the last value.
- CodeGen.Params: `str()` of a non-string YAML value is the `Repr` parameter. `yaml.safe_load` produces 2-tuples for `!!omap` and `!!pairs`. The model represents them as two-element lists. As a list element, a 2-tuple takes the same branch as a two-element list, so the parameters agree. Where a tuple is rendered inside another value with `str()`, `('a', 1)` and `['a', 1]` are not told apart.
- CodeGen.Generate: a component's `name` is a string. A component without `name` raises `KeyError`, and a non-string `name` (a number, say) raises `AttributeError` at `name.split`. Neither case is modelled. Nor are the YAML read, the loop over `components`, the `description` and `output` fields, the code template or the file writes.
- SqlLedger.Replay: only runs of at most 2^63-1 appends are replayed. The append that would come next fails, as AppendEntry states.
- The other modules of the repository are not part of this model: the API, dashboard, orchestrator, data collector, ML code and metrics.

=== FILE: base.dfy ===
/** Failure-carrying wrappers shared by the ledger and code-generator models. */
module Base {

  /** A value that may be absent (Python's `None`, a missing row, a missing key). */
  datatype Option<+T> = None | Some(value: T)

  /** The outcome of an operation that can raise: the value, or the exception raised. */
  datatype Result<+T, +E> = Success(value: T) | Failure(error: E)

  function Min(a: int, b: int): int { if a <= b then a else b }

  function Max(a: int, b: int): int { if a <= b then b else a }
}

=== FILE: canonical.dfy ===
/**
  The canonical form that `json.dumps(obj, sort_keys=True)` serialises: every
  dict, at every depth, has its members sorted by key. Both ledgers hash this
  form, so a digest depends on a dict's contents and not on its key order.
 */
module Canonical {
  import opened Text
  import opened Base
  import opened Json

  /**
    SHA-256, hex-encoded, of the serialisation of a canonical JSON value. Each
    ledger passes its own: the two serialise with different separators.
   */
  type Hasher = Json -> string

  /** Keys strictly ascending: sorted, and no key twice. */
  predicate StrictlySorted(o: Object) {
    forall i, j :: 0 <= i < j < |o| ==> Less(o[i].key, o[j].key)
  }

  /** Insertion of one member into a key-sorted dict. */
  function Insert(m: Member, o: Object): (r: Object)
    ensures |r| == |o| + 1
    ensures multiset(r) == multiset(o) + multiset{m}
    ensures forall x :: x in r <==> x == m || x in o
  {
    if |o| == 0 then [m]
    else if Less(m.key, o[0].key) then [m] + o
    else
      assert o == [o[0]] + o[1..];
      [o[0]] + Insert(m, o[1..])
  }

  /** `sorted(d.items())`, the order `sort_keys=True` writes members in. */
  function SortByKey(o: Object): (r: Object)
    ensures |r| == |o|
    ensures multiset(r) == multiset(o)
    ensures forall x :: x in r <==> x in o
  {
    if |o| == 0 then [] else
      assert o == [o[0]] + o[1..];
      Insert(o[0], SortByKey(o[1..]))
  }

  /** The value whose plain serialisation is the `sort_keys=True` serialisation of `v`. */
  function Canonicalize(v: Json): Json
    decreases v
  {
    match v
    case JArr(items) =>
      JArr(seq(|items|, i requires 0 <= i < |items| => Canonicalize(items[i])))
    case JObj(ms) =>
      JObj(SortByKey(CanonicalMembers(ms)))
    case _ => v
  }

  lemma {:induction false} InsertStrictlySorted(m: Member, o: Object)
    requires StrictlySorted(o)
    requires forall x :: x in o ==> x.key != m.key
    ensures StrictlySorted(Insert(m, o))
    decreases |o|
  {
    if |o| == 0 {
    } else if Less(m.key, o[0].key) {
      forall j | 0 < j < |o| ensures Less(m.key, o[j].key) {
        LessTransitive(m.key, o[0].key, o[j].key);
      }
    } else {
      LessTotal(m.key, o[0].key);
      var rest := Insert(m, o[1..]);
      InsertStrictlySorted(m, o[1..]);
      forall j | 0 <= j < |rest| ensures Less(o[0].key, rest[j].key) {
        assert rest[j] in rest;
        if rest[j] != m {
          var k :| 0 <= k < |o[1..]| && o[1..][k] == rest[j];
          assert o[k + 1] == rest[j];
        }
      }
      var r := [o[0]] + rest;
      forall i, j | 0 <= i < j < |r| ensures Less(r[i].key, r[j].key) {
        if i > 0 {
          assert r[i] == rest[i - 1] && r[j] == rest[j - 1];
        } else {
          assert r[j] == rest[j - 1];
        }
      }
    }
  }

  /** Sorting the members of a dict yields strictly ascending keys. */
  lemma {:induction false} SortStrictlySorted(o: Object)
    requires UniqueKeys(o)
    ensures StrictlySorted(SortByKey(o))
    decreases |o|
  {
    if |o| > 0 {
      assert UniqueKeys(o[1..]) by {
        forall i, j | 0 <= i < j < |o[1..]| ensures o[1..][i].key != o[1..][j].key {
          assert o[1..][i] == o[i + 1] && o[1..][j] == o[j + 1];
        }
      }
      SortStrictlySorted(o[1..]);
      forall x | x in SortByKey(o[1..]) ensures x.key != o[0].key {
        var k :| 0 <= k < |o[1..]| && o[1..][k] == x;
        assert o[k + 1] == x;
      }
      InsertStrictlySorted(o[0], SortByKey(o[1..]));
    }
  }

  /** A strictly sorted dict is determined by its set of members. */
  lemma {:induction false} StrictlySortedUnique(s: Object, t: Object)
    requires StrictlySorted(s) && StrictlySorted(t)
    requires forall x :: x in s <==> x in t
    ensures s == t
    decreases |s|
  {
    if |s| > 0 {
      assert s[0] in t;
    }
    if |t| > 0 {
      assert t[0] in s;
    }
    if |s| > 0 {
      var j :| 0 <= j < |t| && t[j] == s[0];
      var i :| 0 <= i < |s| && s[i] == t[0];
      if j > 0 {
        if i > 0 {
          LessAsymmetric(s[0].key, s[i].key);
        } else {
          LessIrreflexive(t[0].key);
        }
      }
      assert s[0] == t[0];
      forall x ensures x in s[1..] <==> x in t[1..] {
        if x in s[1..] {
          var k :| 0 <= k < |s[1..]| && s[1..][k] == x;
          assert s[k + 1] == x;
          if x == t[0] {
            LessIrreflexive(x.key);
          }
          assert x in t;
        }
        if x in t[1..] {
          var k :| 0 <= k < |t[1..]| && t[1..][k] == x;
          assert t[k + 1] == x;
          if x == s[0] {
            LessIrreflexive(x.key);
          }
          assert x in s;
        }
      }
      StrictlySortedUnique(s[1..], t[1..]);
      assert s == [s[0]] + s[1..] && t == [t[0]] + t[1..];
    }
  }

  /** The canonical members of a dict: each value canonicalised, in insertion order. */
  function CanonicalMembers(ms: seq<Member>): (r: seq<Member>)
    ensures |r| == |ms|
    ensures forall i :: 0 <= i < |ms| ==> r[i] == Member(ms[i].key, Canonicalize(ms[i].value))
  {
    seq(|ms|, i requires 0 <= i < |ms| => Member(ms[i].key, Canonicalize(ms[i].value)))
  }

  /** Dicts with the same keys in the same order, whose values canonicalise alike, canonicalise alike. */
  lemma SameKeysSameCanonical(ms: seq<Member>, ns: seq<Member>)
    requires |ms| == |ns|
    requires forall i :: 0 <= i < |ms| ==> ms[i].key == ns[i].key && Canonicalize(ms[i].value) == Canonicalize(ns[i].value)
    ensures Canonicalize(JObj(ms)) == Canonicalize(JObj(ns))
  {
    assert CanonicalMembers(ms) == CanonicalMembers(ns);
  }

  /** Dicts holding the same canonical members sort to the same canonical dict. */
  lemma SameMembersSameSort(ms: seq<Member>, ns: seq<Member>)
    requires UniqueKeys(ms) && UniqueKeys(ns)
    requires forall x :: x in CanonicalMembers(ms) <==> x in CanonicalMembers(ns)
    ensures Canonicalize(JObj(ms)) == Canonicalize(JObj(ns))
  {
    var ca, cb := CanonicalMembers(ms), CanonicalMembers(ns);
    forall i, j | 0 <= i < j < |ca| ensures ca[i].key != ca[j].key {
      assert ca[i].key == ms[i].key && ca[j].key == ms[j].key;
    }
    forall i, j | 0 <= i < j < |cb| ensures cb[i].key != cb[j].key {
      assert cb[i].key == ns[i].key && cb[j].key == ns[j].key;
    }
    SortStrictlySorted(ca);
    SortStrictlySorted(cb);
    StrictlySortedUnique(SortByKey(ca), SortByKey(cb));
  }

  /** Dicts with the same keys, whose values under each key canonicalise alike, canonicalise alike. */
  lemma SameEntriesSameCanonical(ms: seq<Member>, ns: seq<Member>)
    requires UniqueKeys(ms) && UniqueKeys(ns)
    requires forall i :: 0 <= i < |ms| ==> HasKey(ns, ms[i].key)
    requires forall j :: 0 <= j < |ns| ==> HasKey(ms, ns[j].key)
    requires forall i, j :: 0 <= i < |ms| && 0 <= j < |ns| && ms[i].key == ns[j].key ==>
      Canonicalize(ms[i].value) == Canonicalize(ns[j].value)
    ensures Canonicalize(JObj(ms)) == Canonicalize(JObj(ns))
  {
    var ca, cb := CanonicalMembers(ms), CanonicalMembers(ns);
    forall x ensures x in ca <==> x in cb {
      if x in ca {
        var i :| 0 <= i < |ca| && ca[i] == x;
        assert HasKey(ns, ms[i].key);
        var j :| 0 <= j < |ns| && ns[j].key == ms[i].key;
        assert cb[j] == x;
      }
      if x in cb {
        var j :| 0 <= j < |cb| && cb[j] == x;
        assert HasKey(ms, ns[j].key);
        var i :| 0 <= i < |ms| && ms[i].key == ns[j].key;
        assert ca[i] == x;
      }
    }
    SameMembersSameSort(ms, ns);
  }

  /**
    Values Python considers equal have the same canonical form: at every
    depth, the order in which a dict's keys were inserted does not matter.
   */
  lemma {:induction false} CanonicalRespectsPyEq(a: Json, b: Json)
    requires WellFormed(a) && WellFormed(b)
    requires PyEq(a, b)
    ensures Canonicalize(a) == Canonicalize(b)
    decreases a
  {
    match a
    case JArr(xs) =>
      var ys := b.items;
      forall i | 0 <= i < |xs| ensures Canonicalize(xs[i]) == Canonicalize(ys[i]) {
        CanonicalRespectsPyEq(xs[i], ys[i]);
      }
      assert Canonicalize(a).items == Canonicalize(b).items;
    case JObj(ms) =>
      var ns := b.members;
      forall i, j | 0 <= i < |ms| && 0 <= j < |ns| && ms[i].key == ns[j].key
        ensures Canonicalize(ms[i].value) == Canonicalize(ns[j].value)
      {
        CanonicalRespectsPyEq(ms[i].value, ns[j].value);
      }
      SameEntriesSameCanonical(ms, ns);
    case _ =>
  }
}

=== FILE: codegen.dfy ===
/**
  The naming and parameter rules of the stub generator: how a component's
  YAML `input` becomes the parameter list of the generated method, and how a
  snake_case component name becomes a class name and a method name.
 */
module CodeGen {
  import opened Base
  import opened Text
  import opened YamlDict

  /** Python's `str()` of a value that is not a string; left abstract. */
  type Repr = Yaml -> string

  /** One component of the specification file. */
  datatype Component = Component(name: string, input: Option<Yaml>)

  /** What the generator derives for one component. */
  datatype Stub = Stub(className: string, methodName: string, paramStr: string)

  // ---------------------------------------------------------------- parameters

  /** `f"{v}"`: a string is itself, anything else is its `str()`. */
  function Str(v: Yaml, repr: Repr): string {
    if v.YStr? then v.s else repr(v)
  }

  /** `f"{k}: {v}"`. */
  function Pair(k: Yaml, v: Yaml, repr: Repr): string {
    Str(k, repr) + ": " + Str(v, repr)
  }

  /** `[f"{k}: {v}" for k, v in d.items()]` over a dict's entries. */
  function EntryParams(es: seq<YEntry>, repr: Repr): (r: seq<string>)
    ensures |r| == |es|
    ensures forall i :: 0 <= i < |es| ==> r[i] == Pair(es[i].key, es[i].value, repr)
  {
    seq(|es|, i requires 0 <= i < |es| => Pair(es[i].key, es[i].value, repr))
  }

  /** What one element of a list input contributes. */
  function ItemParams(item: Yaml, repr: Repr): seq<string> {
    match item
    case YMap(es) => EntryParams(DictOf(es), repr)
    case YList(xs) => if |xs| == 2 then [Pair(xs[0], xs[1], repr)] else []
    case YStr(s) => [s]
    case YScalar(_) => []
  }

  /** The contributions of a list input's elements, in order. */
  function ListParams(items: seq<Yaml>, repr: Repr): seq<string> {
    if |items| == 0 then [] else ItemParams(items[0], repr) + ListParams(items[1..], repr)
  }

  /** The parameter list built from a component's `input`. */
  function Params(input: Yaml, repr: Repr): seq<string> {
    match input
    case YMap(es) => EntryParams(DictOf(es), repr)
    case YList(items) => ListParams(items, repr)
    case YStr(s) => if Lower(s) != "none" then [s] else []
    case YScalar(_) => []
  }

  /**
    A dict input gives one `"k: v"` parameter per distinct key written, in the
    order keys were first written, each with the value written last under it.
   */
  lemma MapInputParams(es: seq<YEntry>, repr: Repr)
    ensures |Params(YMap(es), repr)| == |DictOf(es)|
    ensures forall i :: 0 <= i < |DictOf(es)| ==>
      && Params(YMap(es), repr)[i] == Pair(DictOf(es)[i].key, DictOf(es)[i].value, repr)
      && LastFor(es, DictOf(es)[i])
    ensures UniqueYKeys(DictOf(es))
    ensures forall k :: HasYKey(DictOf(es), k) <==> HasYKey(es, k)
    ensures forall i, i', j' :: 0 <= i < i' < |DictOf(es)| && 0 <= j' < |es| && es[j'].key == DictOf(es)[i'].key ==>
      HasYKey(es[..j'], DictOf(es)[i].key)
  {
    DictOfLastValues(es);
    DictOfKeys(es);
    DictOfOrder(es);
  }

  /** With no key repeated, a dict input gives one `"k: v"` parameter per entry, in the order written. */
  lemma DistinctKeysParams(es: seq<YEntry>, repr: Repr)
    requires UniqueYKeys(es)
    ensures |Params(YMap(es), repr)| == |es|
    ensures forall i :: 0 <= i < |es| ==> Params(YMap(es), repr)[i] == Pair(es[i].key, es[i].value, repr)
  {
    DictOfDistinct(es);
  }

  /** The spellings of "none" in any mix of cases. */
  predicate SpellsNone(s: string) {
    && |s| == 4
    && (s[0] == 'n' || s[0] == 'N')
    && (s[1] == 'o' || s[1] == 'O')
    && (s[2] == 'n' || s[2] == 'N')
    && (s[3] == 'e' || s[3] == 'E')
  }

  lemma LowerIsNone(s: string)
    ensures Lower(s) == "none" <==> SpellsNone(s)
  {
    if SpellsNone(s) {
      assert Lower(s) == "none";
    }
    if Lower(s) == "none" {
      assert LowerChar(s[0]) == 'n' && LowerChar(s[1]) == 'o' && LowerChar(s[2]) == 'n' && LowerChar(s[3]) == 'e';
    }
  }

  /** A string input is one parameter, unless it spells "none" in any case. */
  lemma StringInputParams(s: string, repr: Repr)
    ensures SpellsNone(s) ==> Params(YStr(s), repr) == []
    ensures !SpellsNone(s) ==> Params(YStr(s), repr) == [s]
  {
    LowerIsNone(s);
  }

  /** Inputs that are not a dict, a list or a string give no parameters. */
  lemma ScalarInputParams(t: string, repr: Repr)
    ensures Params(YScalar(t), repr) == []
  {
  }

  /** A list input's parameters are its parts' parameters, concatenated in order. */
  lemma {:induction false} ListParamsAppend(a: seq<Yaml>, b: seq<Yaml>, repr: Repr)
    ensures ListParams(a + b, repr) == ListParams(a, repr) + ListParams(b, repr)
    decreases |a|
  {
    if |a| == 0 {
      assert a + b == b;
    } else {
      assert (a + b)[1..] == a[1..] + b;
      ListParamsAppend(a[1..], b, repr);
    }
  }

  /** Each element of a list input contributes its own parameters, between those of the elements before and after it. */
  lemma {:induction false} ListElementParams(items: seq<Yaml>, i: nat, repr: Repr)
    requires i < |items|
    ensures ListParams(items, repr) == ListParams(items[..i], repr) + ItemParams(items[i], repr) + ListParams(items[i + 1..], repr)
  {
    var before, x, after := items[..i], items[i], items[i + 1..];
    assert items == before + ([x] + after);
    ListParamsAppend(before, [x] + after, repr);
    ListParamsAppend([x], after, repr);
    assert [x][1..] == [];
    assert ListParams([x], repr) == ItemParams(x, repr);
  }

  /** A list of plain strings gives those strings as parameters, one each. */
  lemma {:induction false} StringListParams(items: seq<Yaml>, repr: Repr)
    requires forall i :: 0 <= i < |items| ==> items[i].YStr?
    ensures |ListParams(items, repr)| == |items|
    ensures forall i :: 0 <= i < |items| ==> ListParams(items, repr)[i] == items[i].s
    decreases |items|
  {
    if |items| > 0 {
      StringListParams(items[1..], repr);
    }
  }

  // ---------------------------------------------------------------- param_str

  /** `sep.join(ps)`. */
  function Join(ps: seq<string>, sep: string): string
    decreases |ps|
  {
    if |ps| == 0 then ""
    else if |ps| == 1 then ps[0]
    else ps[0] + sep + Join(ps[1..], sep)
  }

  /** With a non-empty separator, a join is empty only for no parts or one empty part. */
  lemma JoinEmpty(ps: seq<string>, sep: string)
    requires |sep| > 0
    ensures Join(ps, sep) == "" <==> |ps| == 0 || ps == [""]
  {
    if |ps| == 1 {
      assert ps == [ps[0]];
    } else if |ps| > 1 {
      assert |Join(ps, sep)| >= |sep|;
    }
  }

  /** The separator `param_str` joins parameters with, and puts before them. */
  const ParamSep: string := ", "

  /**
    `param_str`: the parameters joined with `ParamSep` and, when that text is
    not empty, prefixed with `ParamSep` so it can follow `self`.
   */
  function ParamStr(ps: seq<string>): (r: string)
    ensures r == "" <==> |ps| == 0 || ps == [""]
    ensures r != "" ==> r == ParamSep + Join(ps, ParamSep)
  {
    JoinEmpty(ps, ParamSep);
    var joined := Join(ps, ParamSep);
    if joined == "" then "" else ParamSep + joined
  }

  // ---------------------------------------------------------------- names

  /** `s.split("_")`: the pieces between underscores, empty ones included. */
  function Split(s: string): (parts: seq<string>)
    ensures |parts| == Count(s, '_') + 1
    ensures forall i :: 0 <= i < |parts| ==> '_' !in parts[i]
    decreases |s|
  {
    if |s| == 0 then [""]
    else
      var rest := Split(s[1..]);
      if s[0] == '_' then [""] + rest
      else [[s[0]] + rest[0]] + rest[1..]
  }

  /** Joining the pieces back with "_" gives the name again. */
  lemma {:induction false} SplitJoin(s: string)
    ensures Join(Split(s), "_") == s
    decreases |s|
  {
    if |s| > 0 {
      SplitJoin(s[1..]);
      var rest := Split(s[1..]);
      var parts := Split(s);
      if s[0] == '_' {
        assert parts == [""] + rest && |parts| >= 2 && parts[1..] == rest;
        assert Join(parts, "_") == "" + "_" + Join(rest, "_");
      } else if |rest| == 1 {
        assert parts == [[s[0]] + rest[0]];
        assert Join(rest, "_") == rest[0];
      } else {
        var tail := Join(rest[1..], "_");
        assert parts[0] == [s[0]] + rest[0] && parts[1..] == rest[1..];
        assert Join(rest, "_") == rest[0] + "_" + tail;
        assert Join(parts, "_") == ([s[0]] + rest[0]) + "_" + tail;
        Regroup([s[0]], rest[0], "_");
        Regroup([s[0]], rest[0] + "_", tail);
      }
      assert s == [s[0]] + s[1..];
    }
  }

  /** `s.replace("_", "")`. */
  function Strip(s: string): (r: string)
    ensures '_' !in r
    ensures |r| == |s| - Count(s, '_')
    decreases |s|
  {
    if |s| == 0 then ""
    else if s[0] == '_' then Strip(s[1..])
    else [s[0]] + Strip(s[1..])
  }

  /** `"".join(parts)`. */
  function Concat(parts: seq<string>): string
    decreases |parts|
  {
    if |parts| == 0 then "" else parts[0] + Concat(parts[1..])
  }

  /** Removing the underscores is the same as gluing the pieces of the split together. */
  lemma {:induction false} StripIsConcatOfSplit(s: string)
    ensures Strip(s) == Concat(Split(s))
    decreases |s|
  {
    if |s| > 0 {
      StripIsConcatOfSplit(s[1..]);
      var rest := Split(s[1..]);
      if s[0] != '_' {
        assert Concat(rest) == rest[0] + Concat(rest[1..]);
        assert Concat(Split(s)) == ([s[0]] + rest[0]) + Concat(rest[1..]);
      }
    }
  }

  /** `x.capitalize()` of each piece. */
  function CapitalizeAll(parts: seq<string>): (r: seq<string>)
    ensures |r| == |parts|
    ensures forall i :: 0 <= i < |parts| ==> r[i] == Capitalize(parts[i])
  {
    seq(|parts|, i requires 0 <= i < |parts| => Capitalize(parts[i]))
  }

  /** Case does not survive lowering: capitalising the pieces changes only case. */
  lemma {:induction false} LowerConcatCapitalized(parts: seq<string>)
    ensures Lower(Concat(CapitalizeAll(parts))) == Lower(Concat(parts))
    ensures |Concat(CapitalizeAll(parts))| == |Concat(parts)|
    decreases |parts|
  {
    if |parts| > 0 {
      LowerConcatCapitalized(parts[1..]);
      assert CapitalizeAll(parts)[1..] == CapitalizeAll(parts[1..]);
      LowerAppend(Capitalize(parts[0]), Concat(CapitalizeAll(parts[1..])));
      LowerAppend(parts[0], Concat(parts[1..]));
    }
  }

  /** `method_name = name.replace("_", "")`. */
  function MethodName(name: string): (r: string)
    ensures '_' !in r
    ensures |r| == |name| - Count(name, '_')
    ensures r == Concat(Split(name))
  {
    StripIsConcatOfSplit(name);
    Strip(name)
  }

  /** An underscore survives lowering and nothing else lowers to one. */
  lemma UnderscoreLower(s: string)
    ensures '_' in s <==> '_' in Lower(s)
  {
    if '_' in Lower(s) {
      var i :| 0 <= i < |s| && Lower(s)[i] == '_';
      assert s[i] == '_';
    }
    if '_' in s {
      var i :| 0 <= i < |s| && s[i] == '_';
      assert Lower(s)[i] == '_';
    }
  }

  /**
    A reference for the class name, read off the name one character at a
    time: underscores are dropped, the first character after the start or
    after an underscore is raised, every other character is lowered.
   */
  function Camel(s: string, start: bool): string
    decreases |s|
  {
    if |s| == 0 then ""
    else if s[0] == '_' then Camel(s[1..], true)
    else [if start then UpperChar(s[0]) else LowerChar(s[0])] + Camel(s[1..], false)
  }

  /** Gluing capitalised pieces is the same as gluing the first capitalised piece to the rest. */
  lemma ConcatCapitalizedCons(parts: seq<string>)
    requires |parts| > 0
    ensures Concat(CapitalizeAll(parts)) == Capitalize(parts[0]) + Concat(CapitalizeAll(parts[1..]))
  {
    assert CapitalizeAll(parts)[1..] == CapitalizeAll(parts[1..]);
  }

  lemma Regroup(a: string, b: string, c: string)
    ensures a + (b + c) == (a + b) + c
  {
  }

  /** A leading underscore starts a new piece: the reference restarts with its flag raised. */
  lemma {:induction false} CamelUnderscore(s: string, rest: seq<string>)
    requires |s| > 0 && s[0] == '_'
    requires rest == Split(s[1..])
    requires Camel(s[1..], true) == Concat(CapitalizeAll(rest))
    ensures Camel(s, false) == Lower(Split(s)[0]) + Concat(CapitalizeAll(Split(s)[1..]))
    ensures Camel(s, true) == Concat(CapitalizeAll(Split(s)))
  {
    var parts := Split(s);
    assert parts == [""] + rest;
    assert parts[0] == "" && parts[1..] == rest;
    assert Lower("") == "" && Capitalize("") == "";
    ConcatCapitalizedCons(parts);
  }

  /** Lowering and capitalising a piece, one leading character at a time. */
  lemma PieceCase(c: char, w: string)
    ensures Lower([c] + w) == [LowerChar(c)] + Lower(w)
    ensures Capitalize([c] + w) == [UpperChar(c)] + Lower(w)
  {
    LowerAppend([c], w);
    assert ([c] + w)[1..] == w;
  }

  /** Any other leading character extends the first piece. */
  lemma {:induction false} CamelLetter(s: string, rest: seq<string>)
    requires |s| > 0 && s[0] != '_'
    requires rest == Split(s[1..])
    requires Camel(s[1..], false) == Lower(rest[0]) + Concat(CapitalizeAll(rest[1..]))
    ensures Camel(s, false) == Lower(Split(s)[0]) + Concat(CapitalizeAll(Split(s)[1..]))
    ensures Camel(s, true) == Concat(CapitalizeAll(Split(s)))
  {
    var parts := Split(s);
    var first := [s[0]] + rest[0];
    var tail := Concat(CapitalizeAll(rest[1..]));
    assert parts == [first] + rest[1..];
    assert parts[0] == first && parts[1..] == rest[1..];
    var lo := [LowerChar(s[0])] + Lower(rest[0]);
    var up := [UpperChar(s[0])] + Lower(rest[0]);
    PieceCase(s[0], rest[0]);
    var k := Camel(s[1..], false);
    assert Camel(s, false) == [LowerChar(s[0])] + k;
    assert Camel(s, true) == [UpperChar(s[0])] + k;
    Regroup([LowerChar(s[0])], Lower(rest[0]), tail);
    Regroup([UpperChar(s[0])], Lower(rest[0]), tail);
    assert Camel(s, false) == lo + tail;
    assert Camel(s, true) == up + tail;
    assert Lower(parts[0]) == lo && Capitalize(parts[0]) == up;
    assert Concat(CapitalizeAll(parts[1..])) == tail;
    assert Lower(Split(s)[0]) + Concat(CapitalizeAll(Split(s)[1..])) == lo + tail;
    ConcatCapitalizedCons(parts);
  }

  /** The reference, from either state, in terms of the pieces of the split. */
  lemma {:induction false} CamelOfSplit(s: string)
    ensures Camel(s, false) == Lower(Split(s)[0]) + Concat(CapitalizeAll(Split(s)[1..]))
    ensures Camel(s, true) == Concat(CapitalizeAll(Split(s)))
    decreases |s|
  {
    if |s| > 0 {
      CamelOfSplit(s[1..]);
      if s[0] == '_' {
        CamelUnderscore(s, Split(s[1..]));
      } else {
        CamelLetter(s, Split(s[1..]));
      }
    }
  }

  /**
    `class_name = "".join(x.capitalize() for x in name.split("_"))`: the first
    character of every piece raised and the rest lowered; it has no underscore
    and differs from the method name only in letter case.
   */
  function ClassName(name: string): (r: string)
    ensures r == Camel(name, true)
    ensures '_' !in r
    ensures |r| == |MethodName(name)|
    ensures Lower(r) == Lower(MethodName(name))
  {
    var r := Concat(CapitalizeAll(Split(name)));
    CamelOfSplit(name);
    LowerConcatCapitalized(Split(name));
    UnderscoreLower(r);
    UnderscoreLower(MethodName(name));
    r
  }

  /** The `input` a component is rendered from: `comp.get("input", [])`. */
  function InputOf(c: Component): Yaml {
    if c.input.Some? then c.input.value else YList([])
  }

  /** The names and parameter text generated for one component. */
  function Generate(c: Component, repr: Repr): (r: Stub)
    ensures r.className == ClassName(c.name) && r.methodName == MethodName(c.name)
    ensures r.paramStr == ParamStr(Params(InputOf(c), repr))
    ensures c.input.None? ==> r.paramStr == ""
    ensures '_' !in r.className && '_' !in r.methodName
    ensures Lower(r.className) == Lower(r.methodName)
  {
    Stub(ClassName(c.name), MethodName(c.name), ParamStr(Params(InputOf(c), repr)))
  }
}

=== FILE: json.dfy ===
/**
  JSON values as the ledgers see them after `json.load`: a Python dict is an
  insertion-ordered list of members, a float is an opaque 64-bit pattern.
 */
module Json {
  import opened Base

  /** An IEEE-754 double; the ledgers store and compare it, never compute with it. */
  datatype Float64 = Float64(bits: bv64)

  datatype Json =
    | JNull
    | JBool(b: bool)
    | JInt(i: int)
    | JFloat(f: Float64)
    | JStr(s: string)
    | JArr(items: seq<Json>)
    | JObj(members: seq<Member>)

  datatype Member = Member(key: string, value: Json)

  /** A Python dict in insertion order. */
  type Object = seq<Member>

  /** Python dicts never repeat a key. */
  predicate UniqueKeys(o: Object) {
    forall i, j :: 0 <= i < j < |o| ==> o[i].key != o[j].key
  }

  predicate HasKey(o: Object, k: string) {
    exists i :: 0 <= i < |o| && o[i].key == k
  }

  /** `o[k]`, or None where Python raises KeyError. */
  function Get(o: Object, k: string): Option<Json> {
    if |o| == 0 then None
    else if o[0].key == k then Some(o[0].value)
    else Get(o[1..], k)
  }

  /** A lookup succeeds exactly when the key is present, and returns one of the dict's members. */
  lemma {:induction false} GetFound(o: Object, k: string)
    ensures Get(o, k).Some? <==> HasKey(o, k)
    ensures Get(o, k).Some? ==> Member(k, Get(o, k).value) in o
    decreases |o|
  {
    if |o| > 0 && o[0].key != k {
      GetFound(o[1..], k);
      assert forall i :: 0 < i < |o| ==> o[i] == o[1..][i - 1];
    }
  }

  /** In a dict, every member is what a lookup of its key returns. */
  lemma {:induction false} GetMember(o: Object, m: Member)
    requires UniqueKeys(o)
    requires m in o
    ensures Get(o, m.key) == Some(m.value)
    decreases |o|
  {
    if o[0] != m {
      var i :| 0 <= i < |o| && o[i] == m;
      assert o[1..][i - 1] == m;
      GetMember(o[1..], m);
    }
  }

  lemma {:induction false} GetAppend(a: Object, b: Object, k: string)
    ensures Get(a + b, k) == if HasKey(a, k) then Get(a, k) else Get(b, k)
    decreases |a|
  {
    if |a| == 0 {
      assert a + b == b;
    } else {
      assert (a + b)[1..] == a[1..] + b;
      GetAppend(a[1..], b, k);
      if a[0].key != k && HasKey(a, k) {
        var i :| 0 <= i < |a| && a[i].key == k;
        assert a[1..][i - 1].key == k;
      }
    }
  }

  /** `{k: v for k, v in o.items() if k != key}`. */
  function Without(o: Object, key: string): Object {
    if |o| == 0 then []
    else if o[0].key == key then Without(o[1..], key)
    else [o[0]] + Without(o[1..], key)
  }

  /** The filtered dict keeps exactly the members under other keys. */
  lemma {:induction false} WithoutMembers(o: Object, key: string)
    ensures forall m :: m in Without(o, key) <==> m in o && m.key != key
    decreases |o|
  {
    if |o| > 0 {
      WithoutMembers(o[1..], key);
      assert o == [o[0]] + o[1..];
    }
  }

  lemma {:induction false} WithoutAppend(a: Object, b: Object, key: string)
    ensures Without(a + b, key) == Without(a, key) + Without(b, key)
    decreases |a|
  {
    if |a| == 0 {
      assert a + b == b;
    } else {
      assert (a + b)[1..] == a[1..] + b;
      WithoutAppend(a[1..], b, key);
    }
  }

  /** Filtering out a key the dict does not hold leaves it as it was. */
  lemma {:induction false} WithoutAbsent(o: Object, key: string)
    requires !HasKey(o, key)
    ensures Without(o, key) == o
    decreases |o|
  {
    if |o| > 0 {
      assert forall i :: 0 <= i < |o[1..]| ==> o[1..][i] == o[i + 1];
      WithoutAbsent(o[1..], key);
    }
  }

  /** Every dict, at every depth, has no repeated key: what `json.load` produces. */
  predicate WellFormed(v: Json)
    decreases v
  {
    match v
    case JArr(xs) => forall i :: 0 <= i < |xs| ==> WellFormed(xs[i])
    case JObj(ms) => UniqueKeys(ms) && forall i :: 0 <= i < |ms| ==> WellFormed(ms[i].value)
    case _ => true
  }

  /**
    Python's `==` on values read back from JSON: lists compare element by
    element; dicts compare equal when they hold the same keys with equal
    values under each key, whatever their insertion order; everything else
    compares as itself.
   */
  predicate PyEq(a: Json, b: Json)
    decreases a
  {
    match a
    case JArr(xs) =>
      && b.JArr?
      && |xs| == |b.items|
      && forall i :: 0 <= i < |xs| ==> PyEq(xs[i], b.items[i])
    case JObj(ms) =>
      && b.JObj?
      && (forall i :: 0 <= i < |ms| ==> HasKey(b.members, ms[i].key))
      && (forall j :: 0 <= j < |b.members| ==> HasKey(ms, b.members[j].key))
      && (forall i, j :: 0 <= i < |ms| && 0 <= j < |b.members| && ms[i].key == b.members[j].key ==>
            PyEq(ms[i].value, b.members[j].value))
    case _ => a == b
  }

  /** On well-formed values every value equals itself. */
  lemma {:induction false} PyEqReflexive(a: Json)
    requires WellFormed(a)
    ensures PyEq(a, a)
    decreases a
  {
    match a
    case JArr(xs) =>
      forall i | 0 <= i < |xs| ensures PyEq(xs[i], xs[i]) {
        PyEqReflexive(xs[i]);
      }
    case JObj(ms) =>
      forall i | 0 <= i < |ms| ensures HasKey(ms, ms[i].key) {
      }
      forall i, j | 0 <= i < |ms| && 0 <= j < |ms| && ms[i].key == ms[j].key
        ensures PyEq(ms[i].value, ms[j].value)
      {
        assert i == j;
        PyEqReflexive(ms[i].value);
      }
    case _ =>
  }

  /** Swapping the two members of a two-key dict gives a dict Python calls equal. */
  lemma {:induction false} PyEqSwapped(k1: string, v1: Json, k2: string, v2: Json)
    requires k1 != k2
    requires WellFormed(v1) && WellFormed(v2)
    ensures PyEq(JObj([Member(k1, v1), Member(k2, v2)]), JObj([Member(k2, v2), Member(k1, v1)]))
  {
    var ms := [Member(k1, v1), Member(k2, v2)];
    var ns := [Member(k2, v2), Member(k1, v1)];
    PyEqReflexive(v1);
    PyEqReflexive(v2);
    assert ns[1].key == k1 && ns[0].key == k2;
    assert HasKey(ns, k1) && HasKey(ns, k2);
    assert ms[0].key == k1 && ms[1].key == k2;
    assert HasKey(ms, k1) && HasKey(ms, k2);
    forall i, j | 0 <= i < 2 && 0 <= j < 2 && ms[i].key == ns[j].key
      ensures PyEq(ms[i].value, ns[j].value)
    {
      assert j == 1 - i;
    }
  }
}

=== FILE: snapshot_ledger.dfy ===
/**
  The JSON snapshot ledger: the whole chain lives in one file, is loaded in
  full by every operation, and is rewritten in full by every append. A block
  is the dict the ledger writes; its "hash" is the digest of its other fields.
 */
module SnapshotLedger {
  import opened Base
  import opened Json
  import opened Canonical

  type Block = Object
  type Ledger = seq<Block>

  /** The `previous_hash` of the first block. */
  const Genesis: string := "GENESIS"

  /** The exceptions the ledger functions can raise on a file whose blocks lack a key. */
  datatype Error = KeyError(key: string)

  /** The ledger file: absent, or holding the ledger it was last saved with. */
  datatype Store = Store(file: Option<Ledger>)

  /** The arguments of one `add_entry` call, with the clock reading it takes. */
  datatype Inference = Inference(candidateId: string, probability: Float64, detectionHash: string, timestamp: string)

  // ---------------------------------------------------------------- hashing

  /** `_calculate_hash`: the digest of the block serialised with sorted keys. */
  function CalculateHash(h: Hasher, block: Block): string {
    h(Canonicalize(JObj(block)))
  }

  /** Blocks Python considers equal hash alike, whatever order their keys (at any depth) were inserted in. */
  lemma HashIgnoresKeyOrder(h: Hasher, a: Block, b: Block)
    requires WellFormed(JObj(a)) && WellFormed(JObj(b))
    requires PyEq(JObj(a), JObj(b))
    ensures CalculateHash(h, a) == CalculateHash(h, b)
  {
    CanonicalRespectsPyEq(JObj(a), JObj(b));
  }

  /** A block whose stored hash is the digest of its other fields. */
  predicate Sealed(h: Hasher, b: Block) {
    Get(b, "hash") == Some(JStr(CalculateHash(h, Without(b, "hash"))))
  }

  // ---------------------------------------------------------------- storage

  /** `_load_ledger`: the saved ledger; a missing file is created holding `[]`. */
  function Load(s: Store): (r: (Store, Ledger))
    ensures r.0.file == Some(r.1)
    ensures s.file.None? ==> r.1 == []
    ensures s.file.Some? ==> r.0 == s && r.1 == s.file.value
  {
    match s.file
    case None => (Store(Some([])), [])
    case Some(l) => (s, l)
  }

  /** `_save_ledger`: the file is rewritten with the whole ledger. */
  function Save(l: Ledger): (s: Store)
    ensures Load(s) == (s, l)
  {
    Store(Some(l))
  }

  // ---------------------------------------------------------------- add_entry

  /**
    The new block's fields before its hash is added, in the order `add_entry`
    inserts them: exactly six keys, holding the given values and link.
   */
  function Fields(index: int, e: Inference, previous: Json): (b: Block)
    ensures !HasKey(b, "hash")
    ensures UniqueKeys(b)
    ensures |b| == 6
    ensures Records(b, index, e)
    ensures Get(b, "previous_hash") == Some(previous)
  {
    var b := [ Member("index", JInt(index)),
               Member("timestamp", JStr(e.timestamp)),
               Member("candidate_id", JStr(e.candidateId)),
               Member("probability", JFloat(e.probability)),
               Member("detection_hash", JStr(e.detectionHash)),
               Member("previous_hash", previous) ];
    assert UniqueKeys(b);
    GetMember(b, b[0]);
    GetMember(b, b[1]);
    GetMember(b, b[2]);
    GetMember(b, b[3]);
    GetMember(b, b[4]);
    GetMember(b, b[5]);
    b
  }

  /** A block holds the values `add_entry` was given, at the given index and link. */
  predicate Records(b: Block, index: int, e: Inference) {
    && Get(b, "index") == Some(JInt(index))
    && Get(b, "timestamp") == Some(JStr(e.timestamp))
    && Get(b, "candidate_id") == Some(JStr(e.candidateId))
    && Get(b, "probability") == Some(JFloat(e.probability))
    && Get(b, "detection_hash") == Some(JStr(e.detectionHash))
  }

  /** `new_block["hash"] = _calculate_hash(new_block)`: the hash goes in as the last key. */
  function Seal(h: Hasher, fields: Block): (b: Block)
    requires !HasKey(fields, "hash")
    ensures Sealed(h, b)
    ensures Without(b, "hash") == fields
  {
    var tag := [Member("hash", JStr(CalculateHash(h, fields)))];
    WithoutAppend(fields, tag, "hash");
    WithoutAbsent(fields, "hash");
    assert Without(tag, "hash") == [];
    GetAppend(fields, tag, "hash");
    assert Without(fields + tag, "hash") == fields;
    assert Get(fields + tag, "hash") == Some(JStr(CalculateHash(h, fields)));
    fields + tag
  }


  /** Sealing leaves the value under every other key as it was. */
  lemma SealKeeps(h: Hasher, fields: Block, k: string)
    requires !HasKey(fields, "hash")
    requires k != "hash"
    ensures Get(Seal(h, fields), k) == Get(fields, k)
  {
    var tag := [Member("hash", JStr(CalculateHash(h, fields)))];
    assert Seal(h, fields) == fields + tag;
    GetAppend(fields, tag, k);
    GetFound(fields, k);
  }

  /** The sealed new block holds the values `add_entry` was given, at the given index and link. */
  lemma NewBlockRecords(h: Hasher, index: int, e: Inference, previous: Json)
    ensures Records(Seal(h, Fields(index, e, previous)), index, e)
    ensures Get(Seal(h, Fields(index, e, previous)), "previous_hash") == Some(previous)
  {
    var fields := Fields(index, e, previous);
    SealKeeps(h, fields, "index");
    SealKeeps(h, fields, "timestamp");
    SealKeeps(h, fields, "candidate_id");
    SealKeeps(h, fields, "probability");
    SealKeeps(h, fields, "detection_hash");
    SealKeeps(h, fields, "previous_hash");
    GetMember(fields, fields[2]);
    GetMember(fields, fields[3]);
    GetMember(fields, fields[4]);
    GetMember(fields, fields[5]);
  }

  /** `ledger[-1]["hash"] if ledger else "GENESIS"`. */
  function TailHash(l: Ledger): (r: Result<Json, Error>)
    ensures |l| == 0 ==> r == Success(JStr(Genesis))
    ensures |l| > 0 ==> (r.Success? <==> HasKey(l[|l| - 1], "hash"))
    ensures |l| > 0 && r.Success? ==> Some(r.value) == Get(l[|l| - 1], "hash")
    ensures r.Failure? ==> r.error == KeyError("hash")
  {
    if |l| == 0 then Success(JStr(Genesis))
    else
      GetFound(l[|l| - 1], "hash");
      match Get(l[|l| - 1], "hash")
      case None => Failure(KeyError("hash"))
      case Some(v) => Success(v)
  }

  /** The in-memory part of `add_entry`: the extended ledger and the new block. */
  function Append(l: Ledger, e: Inference, h: Hasher): (r: Result<(Ledger, Block), Error>)
    ensures r.Success? <==> TailHash(l).Success?
    ensures r.Failure? ==> r.error == KeyError("hash")
    ensures r.Success? ==>
      var (l', b) := r.value;
      && l' == l + [b]
      && Records(b, |l| + 1, e)
      && Get(b, "previous_hash") == Some(TailHash(l).value)
      && Sealed(h, b)
      && Without(b, "hash") == Fields(|l| + 1, e, TailHash(l).value)
      && |b| == 7 && b[6].key == "hash"
  {
    match TailHash(l)
    case Failure(err) => Failure(err)
    case Success(previous) =>
      NewBlockRecords(h, |l| + 1, e, previous);
      var b := Seal(h, Fields(|l| + 1, e, previous));
      Success((l + [b], b))
  }

  /** `add_entry`: load, append one block, save the whole ledger, return the block. */
  function AddEntry(s: Store, e: Inference, h: Hasher): (r: Result<(Store, Block), Error>)
    ensures r.Success? <==> Append(Load(s).1, e, h).Success?
    ensures r.Success? ==>
      && Load(r.value.0).1 == Load(s).1 + [r.value.1]
      && Append(Load(s).1, e, h).value.1 == r.value.1
    ensures r.Failure? ==> s.file.Some? && r.error == KeyError("hash")
  {
    var (_, l) := Load(s);
    match Append(l, e, h)
    case Failure(err) => Failure(err)
    case Success((l', b)) => Success((Save(l'), b))
  }

  // ---------------------------------------------------------------- list_entries

  /** Python's `xs[start:]` for any integer `start`. */
  function SliceFrom<T>(xs: seq<T>, start: int): seq<T> {
    var i := if start < 0 then Max(|xs| + start, 0) else Min(start, |xs|);
    xs[i..]
  }

  /** `ledger[-limit:]`: a contiguous suffix of the ledger, in stored order. */
  function Recent(l: Ledger, limit: int): (r: Ledger)
    ensures |r| <= |l| && r == l[|l| - |r|..]
    ensures limit > 0 ==> |r| == Min(limit, |l|)
    ensures limit == 0 ==> r == l
    ensures limit < 0 ==> |r| == Max(|l| + limit, 0)
  {
    SliceFrom(l, -limit)
  }

  /** `list_entries`: the recent blocks of the loaded ledger. */
  function ListEntries(s: Store, limit: int := 10): (r: (Store, Ledger))
    ensures r.0.file == Some(Load(s).1)
    ensures |r.1| <= |Load(s).1| && r.1 == Load(s).1[|Load(s).1| - |r.1|..]
    ensures limit > 0 ==> |r.1| == Min(limit, |Load(s).1|)
    ensures limit == 0 ==> r.1 == Load(s).1
    ensures limit < 0 ==> |r.1| == Max(|Load(s).1| + limit, 0)
  {
    var (s', l) := Load(s);
    (s', Recent(l, limit))
  }

  // ---------------------------------------------------------------- verify_integrity

  /** What examining one block finds. */
  datatype Step = Pass | LinkBroken | HashMismatch | Missing(key: string)

  /**
    One iteration of the loop in `verify_integrity`: `previous_hash` is read
    first, then the predecessor's `hash`, then the block is re-hashed without
    its own `hash` and compared with the stored one.
   */
  function CheckBlock(block: Block, predecessorHash: Option<Json>, h: Hasher): Step {
    match Get(block, "previous_hash")
    case None => Missing("previous_hash")
    case Some(p) =>
      match predecessorHash
      case None => Missing("hash")
      case Some(q) =>
        if !PyEq(p, q) then LinkBroken
        else
          match Get(block, "hash")
          case None => Missing("hash")
          case Some(stored) =>
            if !PyEq(JStr(CalculateHash(h, Without(block, "hash"))), stored) then HashMismatch else Pass
  }

  /** The check of block `i` (0-based); block 0 is compared against the genesis value. */
  function Check(l: Ledger, i: nat, h: Hasher): Step
    requires i < |l|
  {
    CheckBlock(l[i], if i == 0 then Some(JStr(Genesis)) else Get(l[i - 1], "hash"), h)
  }

  /** What the function returns, or raises, on meeting a failing check. */
  function Verdict(s: Step): Result<bool, Error> {
    match s
    case Pass => Success(true)
    case LinkBroken => Success(false)
    case HashMismatch => Success(false)
    case Missing(k) => Failure(KeyError(k))
  }

  /** The outcome of every block's check, oldest first; the checks are pure, so computing them all changes nothing. */
  function Steps(l: Ledger, h: Hasher): (s: seq<Step>)
    ensures |s| == |l|
    ensures forall j :: 0 <= j < |l| ==> s[j] == Check(l, j, h)
  {
    seq(|l|, j requires 0 <= j < |l| => Check(l, j, h))
  }

  /** Position `j` holds the first failing check from `start` on. */
  predicate FirstFault(s: seq<Step>, start: nat, j: nat) {
    && start <= j < |s|
    && s[j] != Pass
    && forall k :: start <= k < j ==> s[k] == Pass
  }

  /** The loop from position `start` to the end, stopping at the first failing check. */
  function Scan(s: seq<Step>, start: nat): Result<bool, Error>
    decreases |s| - start
  {
    if start >= |s| then Success(true)
    else if s[start] == Pass then Scan(s, start + 1)
    else Verdict(s[start])
  }

  /** The scan returns True exactly when every check from `start` on passes, else the verdict of the first failure. */
  lemma {:induction false} ScanMeaning(s: seq<Step>, start: nat)
    ensures Scan(s, start) == Success(true) <==> forall j :: start <= j < |s| ==> s[j] == Pass
    ensures forall j: nat :: FirstFault(s, start, j) ==> Scan(s, start) == Verdict(s[j])
    decreases |s| - start
  {
    if start < |s| {
      ScanMeaning(s, start + 1);
      if s[start] == Pass {
        forall j: nat | FirstFault(s, start, j) ensures FirstFault(s, start + 1, j) {
        }
      } else {
        assert Verdict(s[start]) != Success(true);
        forall j: nat | FirstFault(s, start, j) ensures j == start {
        }
      }
    }
  }

  /**
    The body of `verify_integrity` (`for i in range(1, len(ledger))`): True
    when every block from the second on passes, otherwise the verdict of the
    first failing block. Block 0 is never examined.
   */
  function VerifyLedger(l: Ledger, h: Hasher): (r: Result<bool, Error>)
    ensures r == Success(true) <==> forall j :: 1 <= j < |l| ==> Check(l, j, h) == Pass
    ensures forall j: nat :: FirstFault(Steps(l, h), 1, j) ==> r == Verdict(Check(l, j, h))
  {
    ScanMeaning(Steps(l, h), 1);
    Scan(Steps(l, h), 1)
  }

  /** `verify_integrity`: verify the loaded ledger. */
  function VerifyIntegrity(s: Store, h: Hasher): (r: (Store, Result<bool, Error>))
    ensures r.0.file == Some(Load(s).1)
    ensures r.1 == Success(true) <==> forall j :: 1 <= j < |Load(s).1| ==> Check(Load(s).1, j, h) == Pass
    ensures forall j: nat :: FirstFault(Steps(Load(s).1, h), 1, j) ==> r.1 == Verdict(Check(Load(s).1, j, h))
  {
    var (s', l) := Load(s);
    (s', VerifyLedger(l, h))
  }

  // ---------------------------------------------------------------- chain invariant

  /** Block `i` has index `i + 1`, is sealed, and links to its predecessor (or to the genesis value). */
  predicate LinkedAt(l: Ledger, i: nat, h: Hasher)
    requires i < |l|
  {
    && Get(l[i], "index") == Some(JInt(i + 1))
    && Sealed(h, l[i])
    && Get(l[i], "previous_hash") == (if i == 0 then Some(JStr(Genesis)) else Get(l[i - 1], "hash"))
  }

  /** The shape `add_entry` gives a ledger: indices 1..N, sealed blocks, each linked to the one before. */
  predicate Chained(l: Ledger, h: Hasher) {
    forall i :: 0 <= i < |l| ==> LinkedAt(l, i, h)
  }

  /** Appending to a chained ledger always succeeds and keeps it chained. */
  lemma AppendKeepsChained(l: Ledger, e: Inference, h: Hasher)
    requires Chained(l, h)
    ensures Append(l, e, h).Success?
    ensures Chained(Append(l, e, h).value.0, h)
  {
    if |l| > 0 {
      assert LinkedAt(l, |l| - 1, h);
    }
    var r := Append(l, e, h);
    var l', b := r.value.0, r.value.1;
    forall i | 0 <= i < |l'| ensures LinkedAt(l', i, h) {
      if i < |l| {
        assert LinkedAt(l, i, h);
        assert l'[i] == l[i];
        if i > 0 {
          assert l'[i - 1] == l[i - 1];
        }
      } else {
        assert l'[i] == b;
        if i > 0 {
          assert l'[i - 1] == l[|l| - 1];
        }
      }
    }
  }

  /** Every block of a chained ledger passes its check, block 0 included. */
  lemma ChainedBlocksPass(l: Ledger, h: Hasher)
    requires Chained(l, h)
    ensures forall j :: 0 <= j < |l| ==> Check(l, j, h) == Pass
  {
    forall j | 0 <= j < |l| ensures Check(l, j, h) == Pass {
      assert LinkedAt(l, j, h);
      if j > 0 {
        assert LinkedAt(l, j - 1, h);
      }
    }
  }

  /** The ledger built by `add_entry` calls, in order, starting from an empty file. */
  function Replay(es: seq<Inference>, h: Hasher): (l: Ledger)
    ensures |l| == |es|
    ensures Chained(l, h)
    ensures forall i :: 0 <= i < |es| ==> Records(l[i], i + 1, es[i])
    decreases |es|
  {
    if |es| == 0 then []
    else
      var before := Replay(es[..|es| - 1], h);
      AppendKeepsChained(before, es[|es| - 1], h);
      Append(before, es[|es| - 1], h).value.0
  }

  /** `verify_integrity` returns True on every well-formed chain. */
  lemma ChainedVerifies(l: Ledger, h: Hasher)
    requires Chained(l, h)
    ensures VerifyLedger(l, h) == Success(true)
  {
    ChainedBlocksPass(l, h);
  }

  /** `verify_integrity` returns True on any ledger built solely by `add_entry` from empty. */
  lemma ReplayVerifies(es: seq<Inference>, h: Hasher)
    ensures VerifyLedger(Replay(es, h), h) == Success(true)
  {
    ChainedVerifies(Replay(es, h), h);
  }

  /** `add_entry` called once per inference, in order; the first exception stops the run. */
  function Run(s: Store, es: seq<Inference>, h: Hasher): Result<Store, Error>
    decreases |es|
  {
    if |es| == 0 then Success(s)
    else
      match Run(s, es[..|es| - 1], h)
      case Failure(err) => Failure(err)
      case Success(s') =>
        match AddEntry(s', es[|es| - 1], h)
        case Failure(err) => Failure(err)
        case Success((s'', _)) => Success(s'')
  }

  /** Starting without a file, every `add_entry` call succeeds and the file ends up holding the replayed ledger. */
  lemma {:induction false} RunReplays(es: seq<Inference>, h: Hasher)
    ensures Run(Store(None), es, h).Success?
    ensures Load(Run(Store(None), es, h).value).1 == Replay(es, h)
    decreases |es|
  {
    if |es| > 0 {
      var prefix, e := es[..|es| - 1], es[|es| - 1];
      RunReplays(prefix, h);
      var s' := Run(Store(None), prefix, h).value;
      AppendKeepsChained(Replay(prefix, h), e, h);
      assert AddEntry(s', e, h).Success?;
    }
  }

  /**
    Rewriting the fields of a block other than the first, without recomputing
    its hash, makes verification return False: the recomputed digest no longer
    matches the stored one.
   */
  lemma HashTamperDetected(l: Ledger, h: Hasher, k: nat, b: Block)
    requires Chained(l, h)
    requires 1 <= k < |l|
    requires Get(b, "previous_hash") == Get(l[k], "previous_hash")
    requires Get(b, "hash") == Get(l[k], "hash")
    requires CalculateHash(h, Without(b, "hash")) != CalculateHash(h, Without(l[k], "hash"))
    ensures VerifyLedger(l[k := b], h) == Success(false)
  {
    var t := l[k := b];
    ChainedBlocksPass(l, h);
    assert LinkedAt(l, k, h) && LinkedAt(l, k - 1, h);
    forall j | 1 <= j < k ensures Check(t, j, h) == Pass {
      assert t[j] == l[j] && t[j - 1] == l[j - 1];
      assert Check(l, j, h) == Pass;
    }
    var q := Get(l[k - 1], "hash").value;
    assert q == JStr(CalculateHash(h, Without(l[k - 1], "hash")));
    assert t[k - 1] == l[k - 1] && Get(b, "previous_hash") == Some(q);
    assert PyEq(q, q);
    var stored := Get(l[k], "hash").value;
    assert stored == JStr(CalculateHash(h, Without(l[k], "hash")));
    assert !PyEq(JStr(CalculateHash(h, Without(b, "hash"))), stored);
    assert Check(t, k, h) == HashMismatch;
    assert FirstFault(Steps(t, h), 1, k);
  }

  /** Rewriting the `previous_hash` of a block other than the first makes verification return False. */
  lemma LinkTamperDetected(l: Ledger, h: Hasher, k: nat, b: Block)
    requires Chained(l, h)
    requires 1 <= k < |l|
    requires HasKey(b, "previous_hash")
    requires Get(b, "previous_hash") != Get(l[k], "previous_hash")
    ensures VerifyLedger(l[k := b], h) == Success(false)
  {
    var t := l[k := b];
    ChainedBlocksPass(l, h);
    forall j | 1 <= j < k ensures Check(t, j, h) == Pass {
      assert t[j] == l[j] && t[j - 1] == l[j - 1];
      assert Check(l, j, h) == Pass;
    }
    assert LinkedAt(l, k, h) && LinkedAt(l, k - 1, h);
    GetFound(b, "previous_hash");
    assert Check(t, k, h) == LinkBroken;
    assert FirstFault(Steps(t, h), 1, k);
  }

  /**
    For a block sealed by `add_entry`, the check passes exactly when its
    `previous_hash` equals its predecessor's `hash` under Python's `==`, and
    otherwise reports a broken link: any value equal in that sense, such as a
    dict with the same items in another order, is accepted.
   */
  lemma SealedLinkPasses(l: Ledger, i: nat, h: Hasher, fields: Block, p: Json, q: Json)
    requires 1 <= i < |l|
    requires !HasKey(fields, "hash")
    requires l[i] == Seal(h, fields)
    requires Get(fields, "previous_hash") == Some(p)
    requires Get(l[i - 1], "hash") == Some(q)
    ensures Check(l, i, h) == Pass <==> PyEq(p, q)
    ensures !PyEq(p, q) ==> Check(l, i, h) == LinkBroken
  {
    SealKeeps(h, fields, "previous_hash");
    var stored := JStr(CalculateHash(h, Without(l[i], "hash")));
    assert Get(l[i], "hash") == Some(stored);
    assert PyEq(stored, stored);
  }

  /**
    The link check compares with Python's `!=`: a `previous_hash` that is a
    dict equal to its predecessor's `hash` up to key order passes, and so
    does the whole two-block ledger.
   */
  lemma ReorderedLinkVerifies(h: Hasher)
    ensures
      var ab := JObj([Member("a", JInt(1)), Member("b", JInt(2))]);
      var ba := JObj([Member("b", JInt(2)), Member("a", JInt(1))]);
      var fields := [Member("previous_hash", ba)];
      var second := fields + [Member("hash", JStr(CalculateHash(h, fields)))];
      VerifyLedger([[Member("hash", ab)], second], h) == Success(true)
  {
    var ab := JObj([Member("a", JInt(1)), Member("b", JInt(2))]);
    var ba := JObj([Member("b", JInt(2)), Member("a", JInt(1))]);
    var fields := [Member("previous_hash", ba)];
    var second := fields + [Member("hash", JStr(CalculateHash(h, fields)))];
    var l := [[Member("hash", ab)], second];
    assert "b"[0] != "a"[0];
    PyEqSwapped("b", JInt(2), "a", JInt(1));
    assert PyEq(ba, ab);
    assert Get(l[0], "hash") == Some(ab);
    assert Get(second, "previous_hash") == Some(ba);
    assert second[1..] == [Member("hash", JStr(CalculateHash(h, fields)))];
    assert Get(second, "hash") == Some(JStr(CalculateHash(h, fields)));
    assert second[1..][1..] == [];
    assert Without(second[1..], "hash") == [];
    assert second[0].key != "hash";
    assert Without(second, "hash") == fields;
    assert Check(l, 1, h) == Pass;
  }

  /** The scan from `start` reads nothing before `start`. */
  lemma {:induction false} ScanReadsSuffix(s: seq<Step>, t: seq<Step>, start: nat)
    requires |s| == |t|
    requires forall j :: start <= j < |s| ==> s[j] == t[j]
    ensures Scan(s, start) == Scan(t, start)
    decreases |s| - start
  {
    if start < |s| {
      ScanReadsSuffix(s, t, start + 1);
    }
  }

  /**
    Block 1 (index 0) is never examined: replacing it by any block with the
    same stored hash leaves the result unchanged, even when its other fields
    no longer match that hash.
   */
  lemma FirstBlockUnchecked(l: Ledger, h: Hasher, b: Block)
    requires |l| >= 1
    requires Get(b, "hash") == Get(l[0], "hash")
    ensures VerifyLedger(l[0 := b], h) == VerifyLedger(l, h)
  {
    var t := l[0 := b];
    forall j | 1 <= j < |l| ensures Check(l, j, h) == Check(t, j, h) {
      assert t[j] == l[j];
      if j == 1 {
        assert t[0] == b;
      } else {
        assert t[j - 1] == l[j - 1];
      }
    }
    ScanReadsSuffix(Steps(l, h), Steps(t, h), 1);
  }

  /** On a ledger built by `add_entry`, rewriting the first block's fields while keeping its stored hash goes undetected. */
  lemma FirstBlockTamperUndetected(l: Ledger, h: Hasher, b: Block)
    requires Chained(l, h)
    requires |l| >= 1
    requires Get(b, "hash") == Get(l[0], "hash")
    ensures VerifyLedger(l[0 := b], h) == Success(true)
  {
    ChainedBlocksPass(l, h);
    FirstBlockUnchecked(l, h, b);
  }
}

=== FILE: sql_ledger.dfy ===
/**
  The SQLite row-append ledger: an insert-only table with AUTOINCREMENT ids.
  Each row stores the hash of its `{type, timestamp, data}` and, beside it,
  the hash of the row with the highest id at the time of the insert.
 */
module SqlLedger {
  import opened Base
  import opened Json
  import opened Canonical

  /** One row of the `ledger` table; `data` is the JSON value stored as text. */
  datatype Row = Row(id: nat, hash: string, entryType: string, timestamp: Float64, data: Json, prevHash: string)

  /** Row ids strictly ascending: the order SQLite stores a rowid table in. */
  predicate IdsAscending(rows: seq<Row>) {
    forall i, j :: 0 <= i < j < |rows| ==> rows[i].id < rows[j].id
  }

  /** Every id is positive and no larger than the AUTOINCREMENT high-water mark. */
  predicate IdsAllocated(rows: seq<Row>, lastId: nat) {
    forall i :: 0 <= i < |rows| ==> 0 < rows[i].id <= lastId
  }

  /** The largest rowid SQLite hands out: the largest signed 64-bit integer. */
  const MaxRowId: nat := 0x7FFF_FFFF_FFFF_FFFF

  datatype RawTable = RawTable(rows: seq<Row>, lastId: nat)

  /** The `ledger` table: its rows in id order and the largest id ever handed out. */
  type Table = t: RawTable | IdsAscending(t.rows) && IdsAllocated(t.rows, t.lastId) && t.lastId <= MaxRowId
    witness RawTable([], 0)

  /** The exception an insert raises: SQLITE_FULL, once AUTOINCREMENT has used up the rowids. */
  datatype SqlError = Full

  /** The database file: the `ledger` table exists or it does not. */
  datatype Db = Db(ledger: Option<Table>)

  /** The arguments of one `append_entry` call, with the clock reading it takes. */
  datatype Entry = Entry(entryType: string, data: Json, timestamp: Float64)

  /** `init_db`: `CREATE TABLE IF NOT EXISTS` creates an empty table and never touches an existing one. */
  function InitDb(db: Db): (r: Db)
    ensures r.ledger.Some?
    ensures db.ledger.None? ==> r.ledger.value == RawTable([], 0)
    ensures db.ledger.Some? ==> r == db
  {
    match db.ledger
    case None => Db(Some(RawTable([], 0)))
    case Some(_) => db
  }

  /** Calling `init_db` again changes nothing. */
  lemma InitDbIdempotent(db: Db)
    ensures InitDb(InitDb(db)) == InitDb(db)
  {
  }

  /** `_compute_hash({"type": ..., "timestamp": ..., "data": ...})`. */
  function ComputeHash(h: Hasher, e: Entry): string {
    h(Canonicalize(JObj([Member("type", JStr(e.entryType)), Member("timestamp", JFloat(e.timestamp)), Member("data", e.data)])))
  }

  /** The digest depends on `data` only up to Python equality: the order of dict keys, at any depth, is irrelevant. */
  lemma ComputeHashIgnoresKeyOrder(h: Hasher, e: Entry, e': Entry)
    requires e.entryType == e'.entryType && e.timestamp == e'.timestamp
    requires WellFormed(e.data) && WellFormed(e'.data) && PyEq(e.data, e'.data)
    ensures ComputeHash(h, e) == ComputeHash(h, e')
  {
    CanonicalRespectsPyEq(e.data, e'.data);
    var ms := [Member("type", JStr(e.entryType)), Member("timestamp", JFloat(e.timestamp)), Member("data", e.data)];
    var ns := [Member("type", JStr(e'.entryType)), Member("timestamp", JFloat(e'.timestamp)), Member("data", e'.data)];
    SameKeysSameCanonical(ms, ns);
  }

  /** `SELECT hash FROM ledger ORDER BY id DESC LIMIT 1`, or `""` on an empty table. */
  function NewestHash(t: Table): (r: string)
    ensures |t.rows| == 0 ==> r == ""
    ensures |t.rows| > 0 ==> exists i :: 0 <= i < |t.rows| && r == t.rows[i].hash && (forall j :: 0 <= j < |t.rows| ==> t.rows[j].id <= t.rows[i].id)
  {
    if |t.rows| == 0 then ""
    else
      var i := |t.rows| - 1;
      assert forall j :: 0 <= j < i ==> t.rows[j].id < t.rows[i].id;
      t.rows[i].hash
  }

  /**
    The id AUTOINCREMENT gives the next row: one past both the high-water mark
    and the largest id present, or none once that would pass `MaxRowId`.
   */
  function NextId(t: Table): (id: Option<nat>)
    ensures id.None? <==> t.lastId == MaxRowId
    ensures id.Some? ==> id.value == t.lastId + 1 && id.value <= MaxRowId
    ensures id.Some? ==> forall i :: 0 <= i < |t.rows| ==> t.rows[i].id < id.value
  {
    var top := Max(t.lastId, if |t.rows| == 0 then 0 else t.rows[|t.rows| - 1].id);
    if top == MaxRowId then None else Some(top + 1)
  }

  /**
    `append_entry`: the database afterwards, and the hash returned or the
    exception raised. A failed insert leaves the table `init_db` committed.
   */
  function AppendEntry(db: Db, e: Entry, h: Hasher): (r: (Db, Result<string, SqlError>))
    ensures r.0.ledger.Some?
    ensures r.1.Failure? <==> InitDb(db).ledger.value.lastId == MaxRowId
    ensures r.1.Failure? ==> r.0 == InitDb(db)
    ensures r.1.Success? ==>
      var before := InitDb(db).ledger.value;
      var after := r.0.ledger.value;
      && |after.rows| == |before.rows| + 1
      && after.lastId == before.lastId + 1
      && after.rows[..|before.rows|] == before.rows
      && var row := after.rows[|before.rows|];
      && row.id == before.lastId + 1
      && (forall i :: 0 <= i < |before.rows| ==> before.rows[i].id < row.id)
      && row.hash == r.1.value
      && row.entryType == e.entryType && row.timestamp == e.timestamp && row.data == e.data
      && row.prevHash == NewestHash(before)
    ensures r.1.Success? ==> r.1.value == ComputeHash(h, e)
  {
    var t := InitDb(db).ledger.value;
    match NextId(t)
    case None => (InitDb(db), Failure(Full))
    case Some(id) =>
      var row := Row(id, ComputeHash(h, e), e.entryType, e.timestamp, e.data, NewestHash(t));
      var t' := Inserted(t, row);
      assert t'.rows[..|t.rows|] == t.rows && t'.rows[|t.rows|] == row;
      (Db(Some(t')), Success(row.hash))
  }

  /** The table after inserting a row whose id is past the high-water mark. */
  function Inserted(t: Table, row: Row): (t': Table)
    requires t.lastId < row.id <= MaxRowId
    ensures t'.rows == t.rows + [row] && t'.lastId == row.id
  {
    var rows := t.rows + [row];
    assert forall i :: 0 <= i < |t.rows| ==> rows[i] == t.rows[i] && rows[i].id <= t.lastId;
    RawTable(rows, row.id)
  }

  /** `ORDER BY id DESC LIMIT limit` over rows kept in id order; SQLite reads a negative limit as no limit. */
  function NewestFirst(rows: seq<Row>, limit: int): (r: seq<Row>)
    ensures |r| == if limit < 0 then |rows| else Min(limit, |rows|)
    ensures forall i :: 0 <= i < |r| ==> r[i] == rows[|rows| - 1 - i]
  {
    var n := if limit < 0 then |rows| else Min(limit, |rows|);
    seq(n, i requires 0 <= i < n => rows[|rows| - 1 - i])
  }

  /**
    What `ORDER BY id DESC LIMIT n` promises, read through ids alone: the rows
    returned are rows of the table with strictly descending ids, and every row
    left out has a smaller id than every row returned.
   */
  lemma NewestFirstOrder(rows: seq<Row>, limit: int)
    requires IdsAscending(rows)
    ensures var r := NewestFirst(rows, limit);
      && (forall i :: 0 <= i < |r| ==> r[i] in rows)
      && (forall i, j :: 0 <= i < j < |r| ==> r[i].id > r[j].id)
      && (forall i, j :: 0 <= i < |r| && 0 <= j < |rows| - |r| ==> rows[j].id < r[i].id)
  {
    var r := NewestFirst(rows, limit);
    forall i | 0 <= i < |r| ensures r[i] in rows {
      assert r[i] == rows[|rows| - 1 - i];
    }
    forall i, j | 0 <= i < j < |r| ensures r[i].id > r[j].id {
      assert r[i] == rows[|rows| - 1 - i] && r[j] == rows[|rows| - 1 - j];
    }
    forall i, j | 0 <= i < |r| && 0 <= j < |rows| - |r| ensures rows[j].id < r[i].id {
      assert r[i] == rows[|rows| - 1 - i];
    }
  }

  /** `list_entries`: at most `limit` rows, newest first. */
  function ListEntries(db: Db, limit: int := 100): (r: (Db, seq<Row>))
    ensures r.0 == InitDb(db)
    ensures limit >= 0 ==> |r.1| == Min(limit, |InitDb(db).ledger.value.rows|)
    ensures limit < 0 ==> |r.1| == |InitDb(db).ledger.value.rows|
    ensures forall i, j :: 0 <= i < j < |r.1| ==> r.1[i].id > r.1[j].id
    ensures forall i :: 0 <= i < |r.1| ==> r.1[i] == InitDb(db).ledger.value.rows[|InitDb(db).ledger.value.rows| - 1 - i]
  {
    var t := InitDb(db).ledger.value;
    (InitDb(db), NewestFirst(t.rows, limit))
  }

  /** Row `i` carries the hash of its own entry and the hash of the row before it (`""` for the first). */
  predicate LinkedAt(h: Hasher, rows: seq<Row>, i: nat)
    requires i < |rows|
  {
    && rows[i].hash == ComputeHash(h, Entry(rows[i].entryType, rows[i].data, rows[i].timestamp))
    && rows[i].prevHash == if i == 0 then "" else rows[i - 1].hash
  }

  /** The shape `append_entry` gives the table. */
  predicate Chained(h: Hasher, rows: seq<Row>) {
    forall i :: 0 <= i < |rows| ==> LinkedAt(h, rows, i)
  }

  /** Appending to a chained table keeps it chained, whether the insert succeeds or fails. */
  lemma AppendKeepsChained(db: Db, e: Entry, h: Hasher)
    requires Chained(h, InitDb(db).ledger.value.rows)
    ensures Chained(h, AppendEntry(db, e, h).0.ledger.value.rows)
  {
    var before := InitDb(db).ledger.value.rows;
    var after := AppendEntry(db, e, h).0.ledger.value.rows;
    forall i | 0 <= i < |after| ensures LinkedAt(h, after, i) {
      if i < |before| {
        assert LinkedAt(h, before, i);
        assert after[i] == before[i];
        if i > 0 {
          assert after[i - 1] == before[i - 1];
        }
      } else if i > 0 {
        assert after[i - 1] == before[|before| - 1];
      }
    }
  }

  /** Row `row` was the `id`-th insert, of entry `e`. */
  predicate Stores(row: Row, id: nat, e: Entry) {
    row.id == id && row.entryType == e.entryType && row.data == e.data && row.timestamp == e.timestamp
  }

  /** One more `append_entry` on a table holding the first entries of `es`, in order, stores the last one after them. */
  lemma AppendStores(before: Db, es: seq<Entry>, h: Hasher)
    requires 0 < |es| <= MaxRowId
    requires before.ledger.Some?
    requires |before.ledger.value.rows| == |es| - 1 && before.ledger.value.lastId == |es| - 1
    requires Chained(h, before.ledger.value.rows)
    requires forall i :: 0 <= i < |es| - 1 ==> Stores(before.ledger.value.rows[i], i + 1, es[..|es| - 1][i])
    ensures AppendEntry(before, es[|es| - 1], h).1.Success?
    ensures
      var after := AppendEntry(before, es[|es| - 1], h).0.ledger.value;
      && |after.rows| == |es| && after.lastId == |es|
      && Chained(h, after.rows)
      && forall i :: 0 <= i < |es| ==> Stores(after.rows[i], i + 1, es[i])
  {
    var e := es[|es| - 1];
    assert InitDb(before) == before;
    AppendKeepsChained(before, e, h);
    var prior := before.ledger.value.rows;
    var next := AppendEntry(before, e, h).0.ledger.value.rows;
    forall i | 0 <= i < |es| ensures Stores(next[i], i + 1, es[i]) {
      if i < |prior| {
        assert next[i] == next[..|prior|][i];
        assert es[i] == es[..|es| - 1][i];
      }
    }
  }

  /** The database after `append_entry` calls, in order, on a database without the table. */
  function Replay(es: seq<Entry>, h: Hasher): (db: Db)
    requires |es| <= MaxRowId
    ensures db.ledger.Some?
    ensures |db.ledger.value.rows| == |es| && db.ledger.value.lastId == |es|
    ensures Chained(h, db.ledger.value.rows)
    ensures forall i :: 0 <= i < |es| ==> Stores(db.ledger.value.rows[i], i + 1, es[i])
    decreases |es|
  {
    if |es| == 0 then InitDb(Db(None))
    else
      var before := Replay(es[..|es| - 1], h);
      AppendStores(before, es, h);
      AppendEntry(before, es[|es| - 1], h).0
  }

  /** Listing returns the appended data verbatim, newest first. */
  lemma ListedDataIsAppendedData(es: seq<Entry>, h: Hasher, limit: int)
    requires |es| <= MaxRowId
    ensures
      var listed := ListEntries(Replay(es, h), limit).1;
      forall j :: 0 <= j < |listed| ==> listed[j].data == es[|es| - 1 - j].data && listed[j].id == |es| - j
  {
    var db := Replay(es, h);
    var rows := db.ledger.value.rows;
    assert InitDb(db) == db;
    assert ListEntries(db, limit) == (db, NewestFirst(rows, limit));
    var listed := NewestFirst(rows, limit);
    ReversedStores(rows, es, listed);
  }

  /** Reading rows that store `es` newest first gives the entries of `es` newest first. */
  lemma ReversedStores(rows: seq<Row>, es: seq<Entry>, listed: seq<Row>)
    requires |rows| == |es| && |listed| <= |rows|
    requires forall i :: 0 <= i < |es| ==> Stores(rows[i], i + 1, es[i])
    requires forall i :: 0 <= i < |listed| ==> listed[i] == rows[|rows| - 1 - i]
    ensures forall j :: 0 <= j < |listed| ==> listed[j].data == es[|es| - 1 - j].data && listed[j].id == |es| - j
  {
  }
}

=== FILE: text.dfy ===
/**
  Operations on strings as sequences of code points: Python's ordering of
  `str` values (used by `sort_keys`) and the ASCII part of its case mapping.
 */
module Text {

  /** Python's `a < b` on `str`: lexicographic by code point, a proper prefix first. */
  predicate Less(a: string, b: string)
    decreases |a|
  {
    |b| > 0 && (|a| == 0 || a[0] < b[0] || (a[0] == b[0] && Less(a[1..], b[1..])))
  }

  lemma {:induction false} LessIrreflexive(a: string)
    ensures !Less(a, a)
    decreases |a|
  {
    if |a| > 0 {
      LessIrreflexive(a[1..]);
    }
  }

  lemma {:induction false} LessTransitive(a: string, b: string, c: string)
    requires Less(a, b) && Less(b, c)
    ensures Less(a, c)
    decreases |a|
  {
    if |a| > 0 && a[0] == b[0] && b[0] == c[0] {
      LessTransitive(a[1..], b[1..], c[1..]);
    }
  }

  /** Distinct strings are always comparable, so sorting by key is a total order. */
  lemma {:induction false} LessTotal(a: string, b: string)
    requires a != b
    ensures Less(a, b) || Less(b, a)
    decreases |a|
  {
    if |a| > 0 && |b| > 0 && a[0] == b[0] {
      assert a == [a[0]] + a[1..] && b == [b[0]] + b[1..];
      LessTotal(a[1..], b[1..]);
    }
  }

  lemma LessAsymmetric(a: string, b: string)
    requires Less(a, b)
    ensures !Less(b, a)
  {
    if Less(b, a) {
      LessTransitive(a, b, a);
      LessIrreflexive(a);
    }
  }

  predicate IsAsciiUpper(c: char) { 'A' <= c <= 'Z' }

  predicate IsAsciiLower(c: char) { 'a' <= c <= 'z' }

  function LowerChar(c: char): (r: char)
    ensures !IsAsciiUpper(r)
  {
    if IsAsciiUpper(c) then (c as int + 32) as char else c
  }

  function UpperChar(c: char): (r: char)
    ensures !IsAsciiLower(r)
  {
    if IsAsciiLower(c) then (c as int - 32) as char else c
  }

  /** Lowering after raising gives the same as lowering: both map a letter to its small form. */
  lemma LowerOfUpper(c: char)
    ensures LowerChar(UpperChar(c)) == LowerChar(c)
  {
  }

  /**
    Python's `s.lower()` restricted to ASCII letters: no capital is left, every
    other character is kept, and each position keeps its letter up to case.
   */
  function Lower(s: string): (r: string)
    ensures |r| == |s|
    ensures forall i :: 0 <= i < |s| ==> r[i] == LowerChar(s[i])
    ensures forall i :: 0 <= i < |s| ==> !IsAsciiUpper(r[i])
    ensures forall i :: 0 <= i < |s| && !IsAsciiUpper(s[i]) ==> r[i] == s[i]
    ensures forall i :: 0 <= i < |s| ==> UpperChar(r[i]) == UpperChar(s[i])
  {
    seq(|s|, i requires 0 <= i < |s| => LowerChar(s[i]))
  }

  /** Lowering twice is lowering once. */
  lemma LowerIdempotent(s: string)
    ensures Lower(Lower(s)) == Lower(s)
  {
  }

  lemma LowerAppend(a: string, b: string)
    ensures Lower(a + b) == Lower(a) + Lower(b)
  {
  }

  /** Python's `s.capitalize()`: first character raised, the rest lowered (ASCII letters). */
  function Capitalize(s: string): (r: string)
    ensures |r| == |s|
    ensures |s| > 0 ==> r[0] == UpperChar(s[0]) && r[1..] == Lower(s[1..])
    ensures Lower(r) == Lower(s)
  {
    if |s| == 0 then "" else
    LowerOfUpper(s[0]);
    [UpperChar(s[0])] + Lower(s[1..])
  }

  /** Number of occurrences of `c` in `s`. */
  function Count(s: string, c: char): (n: nat)
    ensures n <= |s|
    ensures n == 0 <==> c !in s
  {
    if |s| == 0 then 0 else (if s[0] == c then 1 else 0) + Count(s[1..], c)
  }
}

=== FILE: yaml_dict.dfy ===
/**
  The YAML values the stub generator reads, and the dict `yaml.safe_load`
  builds from a mapping whose keys may repeat.
 */
module YamlDict {
  /**
    A value as `yaml.safe_load` reads it. Numbers, booleans, null, dates,
    `!!set` (a Python set) and `!!binary` (bytes) are `YScalar`: none of them
    is a dict, list, tuple or string, so the generator takes its "nothing"
    branch for each. A mapping keeps its entries as written, repeated keys
    included; `DictOf` builds the dict Python gets from them.
   */
  datatype Yaml =
    | YStr(s: string)
    | YScalar(token: string)
    | YList(items: seq<Yaml>)
    | YMap(entries: seq<YEntry>)

  datatype YEntry = YEntry(key: Yaml, value: Yaml)

  /** The keys of a dict, each once. */
  predicate UniqueYKeys(d: seq<YEntry>) {
    forall i, j :: 0 <= i < j < |d| ==> d[i].key != d[j].key
  }

  predicate HasYKey(d: seq<YEntry>, k: Yaml) {
    exists i :: 0 <= i < |d| && d[i].key == k
  }

  /** Where `k` sits in the dict, or -1 when it is not a key. */
  function KeyIndex(d: seq<YEntry>, k: Yaml): (i: int)
    ensures -1 <= i < |d|
    ensures 0 <= i ==> d[i].key == k
    ensures i < 0 <==> !HasYKey(d, k)
    decreases |d|
  {
    if |d| == 0 then -1
    else if d[|d| - 1].key == k then |d| - 1
    else KeyIndex(d[..|d| - 1], k)
  }

  /** `d[e.key] = e.value`: an existing key keeps its place and takes the new value; a new key goes last. */
  function Assign(d: seq<YEntry>, e: YEntry): (r: seq<YEntry>)
    requires UniqueYKeys(d)
    ensures UniqueYKeys(r)
    ensures forall i :: 0 <= i < |d| && d[i].key == e.key ==> r == d[i := e]
    ensures !HasYKey(d, e.key) ==> r == d + [e]
  {
    var i := KeyIndex(d, e.key);
    if i < 0 then d + [e] else d[i := e]
  }

  /** The dict `yaml.safe_load` builds from a mapping's entries: each entry assigned in turn. */
  function DictOf(es: seq<YEntry>): (d: seq<YEntry>)
    ensures UniqueYKeys(d)
    decreases |es|
  {
    if |es| == 0 then [] else Assign(DictOf(es[..|es| - 1]), es[|es| - 1])
  }

  /** The entry `x` is the last one written under its key. */
  predicate LastFor(es: seq<YEntry>, x: YEntry) {
    exists j :: 0 <= j < |es| && es[j] == x && forall j' :: j < j' < |es| ==> es[j'].key != x.key
  }

  /** Where an assignment leaves each entry: the assigned one somewhere, every other one where it was. */
  lemma AssignPlaces(d: seq<YEntry>, e: YEntry) returns (at: nat)
    requires UniqueYKeys(d)
    ensures at < |Assign(d, e)| && Assign(d, e)[at] == e
    ensures forall i :: 0 <= i < |Assign(d, e)| && Assign(d, e)[i].key != e.key ==> i < |d| && Assign(d, e)[i] == d[i]
    ensures forall i :: 0 <= i < |d| && d[i].key != e.key ==> Assign(d, e)[i] == d[i]
    ensures forall i :: 0 <= i < |d| ==> Assign(d, e)[i].key == d[i].key
    ensures |Assign(d, e)| == if HasYKey(d, e.key) then |d| else |d| + 1
  {
    var r := Assign(d, e);
    if HasYKey(d, e.key) {
      var i :| 0 <= i < |d| && d[i].key == e.key;
      assert r == d[i := e];
      forall j | 0 <= j < |r| && r[j].key != e.key ensures j < |d| && r[j] == d[j] {
        assert j != i;
      }
      at := i;
    } else {
      assert r == d + [e];
      at := |d|;
    }
  }

  /** The dict holds exactly the keys written. */
  lemma DictOfKeys(es: seq<YEntry>)
    ensures forall k :: HasYKey(DictOf(es), k) <==> HasYKey(es, k)
  {
    forall k ensures HasYKey(DictOf(es), k) <==> HasYKey(es, k) {
      if HasYKey(DictOf(es), k) {
        DictKeyWritten(es, k);
      }
      if HasYKey(es, k) {
        WrittenKeyKept(es, k);
      }
    }
  }

  lemma {:induction false} DictKeyWritten(es: seq<YEntry>, k: Yaml)
    requires HasYKey(DictOf(es), k)
    ensures HasYKey(es, k)
    decreases |es|
  {
    var n := |es| - 1;
    var p, e := es[..n], es[n];
    var d0 := DictOf(p);
    assert DictOf(es) == Assign(d0, e);
    if k == e.key {
      assert es[n].key == k;
    } else {
      var _ := AssignPlaces(d0, e);
      var i :| 0 <= i < |DictOf(es)| && DictOf(es)[i].key == k;
      assert HasYKey(d0, k);
      DictKeyWritten(p, k);
      var j :| 0 <= j < |p| && p[j].key == k;
      assert es[j] == p[j];
    }
  }

  lemma {:induction false} WrittenKeyKept(es: seq<YEntry>, k: Yaml)
    requires HasYKey(es, k)
    ensures HasYKey(DictOf(es), k)
    decreases |es|
  {
    var n := |es| - 1;
    var p, e := es[..n], es[n];
    var d0 := DictOf(p);
    var d := DictOf(es);
    assert d == Assign(d0, e);
    var at := AssignPlaces(d0, e);
    if k == e.key {
      assert d[at].key == k;
    } else {
      var j :| 0 <= j < |es| && es[j].key == k;
      assert j < n && p[j] == es[j];
      WrittenKeyKept(p, k);
      var i :| 0 <= i < |d0| && d0[i].key == k;
      assert d[i] == d0[i];
    }
  }

  /** Each key of the dict holds the value written last under it. */
  lemma {:induction false} DictOfLastValues(es: seq<YEntry>)
    ensures forall i :: 0 <= i < |DictOf(es)| ==> LastFor(es, DictOf(es)[i])
    decreases |es|
  {
    if |es| > 0 {
      var n := |es| - 1;
      var p, e := es[..n], es[n];
      DictOfLastValues(p);
      var d0 := DictOf(p);
      var d := DictOf(es);
      assert d == Assign(d0, e);
      var at := AssignPlaces(d0, e);
      forall i | 0 <= i < |d| ensures LastFor(es, d[i]) {
        if d[i].key == e.key {
          assert i == at by { assert UniqueYKeys(d); }
          assert es[n] == d[i];
        } else {
          assert LastFor(p, d0[i]);
          var j :| 0 <= j < |p| && p[j] == d0[i] && forall j' :: j < j' < |p| ==> p[j'].key != d0[i].key;
          assert es[j] == d[i];
          forall j' | j < j' < |es| ensures es[j'].key != d[i].key {
            if j' < n {
              assert es[j'] == p[j'];
            }
          }
        }
      }
    }
  }

  /** Without repeated keys the dict is the mapping as written. */
  lemma {:induction false} DictOfDistinct(es: seq<YEntry>)
    requires UniqueYKeys(es)
    ensures DictOf(es) == es
    decreases |es|
  {
    if |es| > 0 {
      var n := |es| - 1;
      var p := es[..n];
      DictOfDistinct(p);
      assert es == p + [es[n]];
      assert !HasYKey(p, es[n].key);
    }
  }

  /** Keys keep the order in which they were first written: when a later key is written, an earlier one already was. */
  lemma DictOfOrder(es: seq<YEntry>)
    ensures forall i, i', j' :: 0 <= i < i' < |DictOf(es)| && 0 <= j' < |es| && es[j'].key == DictOf(es)[i'].key ==>
      HasYKey(es[..j'], DictOf(es)[i].key)
  {
    forall i, i', j' | 0 <= i < i' < |DictOf(es)| && 0 <= j' < |es| && es[j'].key == DictOf(es)[i'].key
      ensures HasYKey(es[..j'], DictOf(es)[i].key)
    {
      WrittenBefore(es, i, i', j');
    }
  }

  lemma {:induction false} WrittenBefore(es: seq<YEntry>, i: nat, i': nat, j': nat)
    requires i < i' < |DictOf(es)| && j' < |es| && es[j'].key == DictOf(es)[i'].key
    ensures HasYKey(es[..j'], DictOf(es)[i].key)
    decreases |es|
  {
    var n := |es| - 1;
    var p, e := es[..n], es[n];
    var d0 := DictOf(p);
    var d := DictOf(es);
    assert d == Assign(d0, e);
    var at := AssignPlaces(d0, e);
    var k := d[i].key;
    assert k != d[i'].key;
    if j' == n {
      // The key written last is at i'; the one at i is older.
      assert k != e.key;
      assert i < |d0| && d[i] == d0[i];
      assert HasYKey(d0, k);
      DictKeyWritten(p, k);
      assert es[..j'] == p;
    } else {
      assert es[j'] == p[j'];
      assert es[..j'] == p[..j'];
      if i' < |d0| {
        assert d0[i'].key == d[i'].key && d0[i].key == k;
        WrittenBefore(p, i, i', j');
      } else {
        // i' is the appended key, which is new: it cannot have been written before n.
        assert !HasYKey(d0, e.key);
        assert d[i'] == e;
        assert HasYKey(p, e.key);
        WrittenKeyKept(p, e.key);
        assert false;
      }
    }
  }
}
